=== FILE: README.md ===
# TikShore core, modelled in Dafny

TikShore is a one-script tool (`main.py`) that finds a channel's YouTube Shorts and downloads them. It pages through the channel's uploads playlist and looks up each video's duration. A video counts as a Short when a substring heuristic accepts its duration. Each Short not already recorded is downloaded as separate best-quality video and audio streams, which are merged with ffmpeg. The video's id is then recorded in a newline-delimited tracking file, so a later run skips it.

This project models the deterministic core of that script. The network, the stream library and ffmpeg are replaced by supplied inputs.

- `Text` (`text.dfy`) models Python's `str.strip()`, using the exact white-space set of `str.isspace`. It also models the `in` substring test, and reading a text file line by line (`for line in file` splits after each `'\n'`). It proves the usual algebra of these: strip is idempotent, strip is the identity exactly on unpadded strings, and splitting into lines and joining them back are inverses on lines without line breaks and on texts that end in one. A last line without a line break is read like any other, so the lines of every text are fixed.
- `ShortClassifier` (`classifier.dfy`) is the predicate at main.py:136, as written. A reference encoder of ISO 8601 durations (hours, minutes and seconds; see section 4.4.3 of ISO 8601:2004) relates the heuristic to a video's real length.
- `DedupLedger` (`ledger.dfy`) is the tracking file (`Absent | Present(text)`) together with the in-memory set of ids. It covers `load_downloaded_ids`, `save_downloaded_id` and `is_video_downloaded`, a run's opening load, and the commit (append to the file, then add to the set). The round-trip lemmas say exactly when reloading the file gives back what was saved.
- `AcquisitionEngine` (`acquisition.dfy`) is `download_best_quality`. Its collaborators are described per video: which of its nine calls raise, and whether a video-only and an audio-only stream were found. The first call that raises ends the acquisition, and the outer handler catches it. The id is committed only after every call succeeds.
- `Catalog` (`catalog.dfy`) is the paginated catalog, given as the sequence of replies to the page requests. Each item carries the reply to its details lookup. `SchedulePages` is the walk's skeleton: the items it reaches, the tokens it sends and why it stops.
- `Pipeline` (`pipeline.dfy`) is the item loop of `fetch_videos_from_playlist`, the page loop around it, and `run_daemon`. It threads one ledger through the whole walk.

## Model

| member | source | states |
|---|---|---|
| Text.Strip | main.py:27 | `str.strip()`: the result has no white space at either end |
| Text.StripPadded | main.py:27 | stripping white space from both ends of an unpadded string gives back that string |
| Text.StripSplits | main.py:27 | every string is its white-space prefix, its stripped form and its white-space suffix, in that order |
| Text.StripIdentity | main.py:27 | strip leaves a string unchanged exactly when it has no white space at either end |
| Text.StripIdempotent | main.py:27 | stripping twice is the same as stripping once |
| Text.Contains | main.py:136 | `sub in s`: the empty string is in every string, and a string longer than `s` is never in it |
| Text.ContainsOccurs | main.py:136 | the substring test holds exactly when the substring occurs at some position |
| Text.ContainsChar | main.py:136 | a one-character substring test is plain character membership |
| Text.Lines | main.py:26-27 | `for line in file`: an empty text has no lines, a non-empty one has at least one, and no line holds a line break |
| Text.LinesJoin | main.py:26-27 | writing lines without line breaks, each followed by `'\n'`, and reading the text back line by line gives the same lines |
| Text.JoinLines | main.py:26-27 | a text that ends in a line break (or is empty) is exactly its lines rejoined |
| Text.LinesUnterminated | main.py:26-27 | a last line without a line break is still read: a text whose last line has no break gives the same lines as that text with a break added |
| Text.JoinLinesOfAny | main.py:26-27 | the lines of any text, each written back followed by `'\n'`, give the text itself when it ends in a line break or is empty, and the text plus one `'\n'` otherwise |
| Text.AppendLine | main.py:33-34 | appending one terminated line to a terminated text adds exactly that line to the lines read back |
| ShortClassifier.IsShort | main.py:136 | the heuristic as written: "PT" and "S" occur in the duration and "M" does not; its contract is stated by the lemmas below |
| ShortClassifier.IsShortByMarkers | main.py:136 | a duration is short exactly when it contains "PT", the character 'S' and no 'M'; so a string without "PT" is never short |
| ShortClassifier.MinutesNeverShort | main.py:136 | any duration containing 'M' is not short |
| ShortClassifier.SecondsExamples | main.py:136 | "PT45S" and "PT30S" are short |
| ShortClassifier.MinutesExample | main.py:136 | "PT2M10S" is not short |
| ShortClassifier.EncodedIsShort | main.py:135-136 | on an encoded duration the heuristic accepts exactly a zero minutes component and a non-zero seconds component, whatever the hours |
| ShortClassifier.ShortUnderAnHour | main.py:135-136 | below one hour, with components in range, the heuristic is exactly "1 to 59 seconds long" |
| ShortClassifier.HourLongVideoCountsAsShort | main.py:136 | one hour and five seconds encodes as "PT1H5S", which the heuristic accepts as short |
| DedupLedger.Load | main.py:21-29 | a missing tracking file loads as the empty set |
| DedupLedger.LoadMembers | main.py:26-27 | a present file loads as exactly the set of its stripped lines, so duplicate lines collapse |
| DedupLedger.LoadOfJoin | main.py:26-27 | a file written as lines without breaks loads as exactly those lines, each stripped |
| DedupLedger.LoadIsClean | main.py:26-27 | every loaded id has no surrounding white space and no line break |
| DedupLedger.Save | main.py:31-34 | saving always leaves a present file that ends in a line break |
| DedupLedger.SaveThenLoad | main.py:26-34 | if the file is absent, empty or ends in a line break and the id has no line break, reloading after a save gives the earlier ids plus the stripped id |
| DedupLedger.SavedIdIsReloaded | main.py:26-34 | when the file is absent, empty or ends in a line break, a saved clean id is in the reloaded set and every id loaded before is still there |
| DedupLedger.SaveDuplicate | main.py:26-34 | when the file is absent, empty or ends in a line break, saving an id already loaded from it does not change the loaded set |
| DedupLedger.LoadUnterminated | main.py:21-27 | a file whose last line has no line break loads the same ids as that file with a break added, so its final id is kept |
| DedupLedger.UnterminatedLogLosesIds | main.py:26-34 | when the file holds one clean id with no final line break, the saved id is glued onto it: the file reloads as the single glued line, and neither the old id nor the new one is found |
| DedupLedger.LoadUnterminatedLine | main.py:26-27 | a file holding one clean id without a final line break still loads as that id |
| DedupLedger.PaddedIdReloadsStripped | main.py:26-34 | an id saved with leading white space reloads stripped, so the id as given is not found |
| DedupLedger.IsDownloaded | main.py:37-42 | the check is plain membership in the in-memory set; the file is not read again |
| DedupLedger.Open | main.py:152 | the run starts from the file as found, and memory and disk agree when the file is absent, empty or ends in a line break |
| DedupLedger.Commit | main.py:77-78 | a commit puts the id in the set, keeps every earlier id and leaves a present file |
| DedupLedger.CommitKeepsSynced | main.py:77-78 | committing a clean id keeps memory and disk in agreement |
| DedupLedger.SaveAllAppends | main.py:33-34 | a series of saves appends each id and a line break, in order, and changes nothing else in the file |
| DedupLedger.SaveAllExtends | main.py:33-34 | the file is append-only: the old contents remain a prefix |
| DedupLedger.SaveAllThenLoad | main.py:21-34 | after saving clean ids to a file that is absent, empty or ends in a line break, the file ends in a line break (or is unchanged) and reloads as the old ids plus exactly the saved ones |
| AcquisitionEngine.RunSteps | main.py:46-85 | calls run in order until the first one that raises, which is the last call made; no call fails exactly when none of them raises |
| AcquisitionEngine.Acquire | main.py:44-85 | the video is committed exactly when both streams exist and no call raises; every other ending leaves the file and the set unchanged |
| AcquisitionEngine.AcquireCalls | main.py:47-78 | the calls made are a prefix of the full sequence; a failure is the last call made, and only that call raised; no suitable streams means exactly the three selection calls; nothing is downloaded unless both streams were found |
| AcquisitionEngine.LogFailureKeepsIdOut | main.py:77-78 | when the log append raises, every call has been made and yet the ledger, file and set, is left exactly as it was: an id not recorded before is still not recorded |
| AcquisitionEngine.AcquireIsMonotone | main.py:77-78 | an acquisition only adds to the set and only appends to the file |
| AcquisitionEngine.AcquireKeepsSynced | main.py:77-78 | an acquisition of a clean id keeps memory and disk in agreement |
| AcquisitionEngine.CommitLeavesOutputOnly | main.py:62-75 | a committed acquisition leaves only the merged output; both temporary files were removed |
| AcquisitionEngine.FailedMergeLeavesTemps | main.py:63-85 | a failed merge leaves both temporary files and no output |
| AcquisitionEngine.FailedAudioLeavesVideo | main.py:57-85 | a failed audio download leaves the video's temporary file behind |
| Catalog.FirstFailure | main.py:129-130 | the position of the first item whose details lookup raises; every item before it resolved |
| Catalog.HasNext | main.py:145-147 | the walk continues only on a present, non-empty next token, the truthiness test of `if not next_page_token`; its effect is stated by `SchedulePages` |
| Catalog.ScheduleReaches | main.py:113-148 | the walk reaches the items of every reply it requested, in order, each page up to its first raising details lookup: every item before an abort, none after it |
| Catalog.SchedulePages | main.py:113-148 | the first request sends the given token; each later request sends the usable token of the page before it; the walk stops at the last reply it requested, for that reply's reason |
| Catalog.SecondPageFails | main.py:113-148 | a raising second page request ends the walk with the first page's items reached and two requests sent, the second with the first page's token |
| Catalog.CompleteCatalog | main.py:113-148 | on a catalog whose requests all succeed, every item of every page is reached once, in page order, with one request per page; the first request has no token, and the walk ends because the tokens ran out |
| Catalog.PageSizeIrrelevant | main.py:109-148 | two complete paginations of the same listing are walked over the same items |
| Pipeline.ProcessItem | main.py:118-143 | acquisition is attempted exactly for a detailed, short, unrecorded video; a recorded one is skipped; one without details is reported; the ledger changes exactly when the attempt commits |
| Pipeline.WalkItems | main.py:118-143 | every item of a page is visited once, in order; the set gains exactly the committed ids, and they are appended to the file in commit order |
| Pipeline.WalkDecisions | main.py:133-143 | each visit is decided from the ids loaded plus those committed earlier in the same walk |
| Pipeline.NoReacquisition | main.py:138-139 | a video committed earlier in the walk is not attempted again when it is listed again |
| Pipeline.WalkPages | main.py:113-148 | the page loop sends one request per reply it consumes, the first with the given token, and the in-memory set only grows |
| Pipeline.WalkFollowsSchedule | main.py:113-148 | the page walk visits the items the catalog schedule reaches and sends the same tokens, whatever happens to each acquisition |
| Pipeline.Run | main.py:150-158 | a channel lookup that raises ends the run with nothing visited and the file unchanged; otherwise the run ends for another reason |
| Pipeline.RunSummary | main.py:150-158 | a resolved run visits the scheduled items in order, decides each from the loaded and earlier committed ids, and appends exactly the committed ids to the file |
| Pipeline.RunReaches | main.py:113-158 | a resolved run visits exactly the items of the replies it requested, in order, each page up to its first raising details lookup; a failed page or a raising lookup ends the visits there |
| Pipeline.RunExtendsLog | main.py:150-158 | a run never removes anything from the tracking file |
| Pipeline.RunThenLoad | main.py:150-158 | when the file before the run is absent, empty or ends in a line break and the committed ids are clean, the file after the run is again so, and it reloads as the ids loaded before plus exactly those committed |
| Pipeline.SecondRunAttemptsNothing | main.py:150-158 | when the first run's file is absent, empty or ends in a line break, its committed ids are clean and every acquisition it attempted succeeded, a second run over the same catalog from the file the first run left attempts nothing |
| Pipeline.UnterminatedLogRetries | main.py:26-34 | from a file whose single clean line has no final line break, a first run in which every attempt succeeds glues the committed id onto that line, and a second run attempts the skipped video again |
| Pipeline.RunOnePage | main.py:113-148 | a one-page catalog without a token is one item loop with a single request |
| Pipeline.RunShortLongShort | main.py:133-139 | short, long, short with no file: both short videos are committed in order, and the file reloads as exactly their ids |
| Pipeline.ScenarioTwoShortsOneLong | main.py:133-139 | videos of 45 s, 2 min 10 s and 30 s give two acquisitions, and the file holds exactly those two ids |
| Pipeline.ScenarioNoAudioStream | main.py:50-83 | a short video with no audio stream is not downloaded, the ledger is unchanged and the loop goes on to the next item |
| Pipeline.RunKnownThenFresh | main.py:136-139 | a video whose id is already in the file is skipped, and a fresh short one after it is still attempted |
| Pipeline.ScenarioAlreadyInLedger | main.py:136-139 | with a 45 s video already recorded and a 30 s one not, the first is skipped and the second attempted |

## Left out

- The YouTube Data API requests and the JSON field extraction (main.py:87-100, 114-131) are not modelled. The page replies, next tokens, details replies and durations are inputs. A request whose status check raises is a `PageFailed` reply or a `LookupFailed` detail. A missing JSON field (a `KeyError`) is not distinguished from a raising request.
- `get_uploads_playlist_id` becomes one input, `resolved`: a failure ends the run with `ChannelError`. The playlist id, video titles and URLs carry no decision and are dropped.
- A details lookup that raises (main.py:129-130) is outside the acquisition's `try`, so it is not isolated per item. It ends the whole walk, which `run_daemon` catches, and the model does the same (`DetailsError`).
- `pytubefix` stream filtering and ordering (main.py:47-53) is library behaviour. Each query becomes "found a stream or not", and each call's failure becomes membership in the set of raising calls.
- The ffmpeg invocation and its codec options (main.py:63-70) become one call that succeeds or raises. The inner handler (main.py:80-81) reads `e.stderr`, which is `None` because stderr is not captured, so the handler itself raises. The outer handler then catches that. Either way the ending is `Failed(Merge)`, so the two handlers are not told apart.
- Temporary files are removed only on the success path (main.py:73-75). `FailedMergeLeavesTemps` and `FailedAudioLeavesVideo` state what a failure leaves behind. Partially written downloads and output files are not modelled.
- A raising log append is assumed to leave the file unchanged. A partial write is not modelled.
- Reading the tracking file uses the platform's text mode. The model splits on `'\n'` only: universal-newline translation of `'\r'`, encodings and read errors are not modelled.
- The duration encoder has hours, minutes and seconds only. A days component is not modelled.
- The heuristic ignores the hours component, so "PT1H5S" counts as short; see `HourLongVideoCountsAsShort`. This is the code's behaviour, modelled as written.
- `Truncated` is a stop reason of the model only: it is reported when the supplied replies run out while a usable token remains. The real loop would send another request.
- `print` logging, the `.env` loading, the creation of the download directory (main.py:1-18) and the `__main__` entry are not modelled.
- Acquire: the outcome names the failing call but not the exception's message.

=== FILE: acquisition.dfy ===
/** The acquisition of one short (`download_best_quality`, main.py:44-85) with
    its collaborators replaced by a description of how they behave: which
    calls raise, and whether a video-only and an audio-only stream exist. */
module AcquisitionEngine {
  import opened Options
  import opened Text
  import opened DedupLedger

  /** The calls the acquisition makes, in the order it makes them. */
  datatype Stage =
    | Lookup          // `YouTube(video_url)` (main.py:47)
    | SelectVideo     // the video-only stream query (main.py:50)
    | SelectAudio     // the audio-only stream query (main.py:53)
    | DownloadVideo   // main.py:57
    | DownloadAudio   // main.py:59
    | Merge           // the ffmpeg run (main.py:64-70)
    | RemoveVideo     // main.py:74
    | RemoveAudio     // main.py:75
    | AppendLog       // `save_downloaded_id` (main.py:77)

  /** How the collaborators behave for one video: the calls that raise, and
      whether each stream query found a stream. */
  datatype Collaborators = Collaborators(raising: set<Stage>, hasVideo: bool, hasAudio: bool)

  /** Both streams exist and no call raises. */
  predicate Succeeds(c: Collaborators) {
    c.hasVideo && c.hasAudio && c.raising == {}
  }

  /** What one acquisition ends in. Every exception is caught inside the
      acquisition, so each ending is an ordinary return to the caller. */
  datatype Outcome =
    | Committed
    | NoSuitableStreams
    | Failed(stage: Stage)

  /** The calls made while the streams are chosen. */
  const Selection: seq<Stage> := [Lookup, SelectVideo, SelectAudio]

  /** The calls made once both streams are known, up to the log append. */
  const Transfer: seq<Stage> := [DownloadVideo, DownloadAudio, Merge, RemoveVideo, RemoveAudio, AppendLog]

  /** The calls of a fully successful acquisition. */
  const FullRun: seq<Stage> := Selection + Transfer

  /** Running calls in order until one raises. */
  datatype StepRun = StepRun(executed: seq<Stage>, failedAt: Option<Stage>)

  /** `steps` run one after another; the first call that raises ends the run. */
  function RunSteps(steps: seq<Stage>, raising: set<Stage>): (r: StepRun)
    ensures |r.executed| <= |steps| && r.executed == steps[..|r.executed|]
    ensures r.failedAt.None? <==> forall i :: 0 <= i < |steps| ==> steps[i] !in raising
    ensures r.failedAt.None? ==> r.executed == steps
    ensures r.failedAt.Some? ==>
      && r.executed != []
      && r.failedAt.value == r.executed[|r.executed| - 1]
      && r.failedAt.value in raising
      && forall i :: 0 <= i < |r.executed| - 1 ==> r.executed[i] !in raising
  {
    if steps == [] then StepRun([], None)
    else if steps[0] in raising then StepRun([steps[0]], Some(steps[0]))
    else
      var rest := RunSteps(steps[1..], raising);
      StepRun([steps[0]] + rest.executed, rest.failedAt)
  }

  /** Every call is part of the full sequence, so "no call raises" and "the set
      of raising calls is empty" are the same thing. */
  lemma EveryStageRuns(s: Stage)
    ensures s in FullRun
  {
    match s
    case Lookup => assert FullRun[0] == s;
    case SelectVideo => assert FullRun[1] == s;
    case SelectAudio => assert FullRun[2] == s;
    case DownloadVideo => assert FullRun[3] == s;
    case DownloadAudio => assert FullRun[4] == s;
    case Merge => assert FullRun[5] == s;
    case RemoveVideo => assert FullRun[6] == s;
    case RemoveAudio => assert FullRun[7] == s;
    case AppendLog => assert FullRun[8] == s;
  }

  /** No call of either phase raises exactly when no call raises at all. */
  lemma NothingRaises(raising: set<Stage>)
    ensures ((forall i :: 0 <= i < |Selection| ==> Selection[i] !in raising)
             && (forall i :: 0 <= i < |Transfer| ==> Transfer[i] !in raising))
            <==> raising == {}
  {
    if raising != {} {
      var s :| s in raising;
      EveryStageRuns(s);
      var k :| 0 <= k < |FullRun| && FullRun[k] == s;
      if k < 3 {
        assert Selection[k] == s;
      } else {
        assert Transfer[k - 3] == s;
      }
    }
  }

  /** The result of one acquisition: how it ended, the calls it made and the
      ledger afterwards. */
  datatype Acquisition = Acquisition(outcome: Outcome, calls: seq<Stage>, ledger: Ledger)

  /** `download_best_quality(url, title, id, downloaded_ids)` on ledger `l`. */
  function Acquire(id: string, l: Ledger, c: Collaborators): (a: Acquisition)
    // Both streams exist and all calls succeed exactly when the video is
    // committed; any other ending leaves the file and the in-memory set alone.
    ensures a.outcome.Committed? <==> Succeeds(c)
    ensures a.ledger == if a.outcome.Committed? then Commit(l, id) else l
  {
    NothingRaises(c.raising);
    var sel := RunSteps(Selection, c.raising);
    if sel.failedAt.Some? then
      Acquisition(Failed(sel.failedAt.value), sel.executed, l)
    else if !(c.hasVideo && c.hasAudio) then
      Acquisition(NoSuitableStreams, Selection, l)
    else
      var tr := RunSteps(Transfer, c.raising);
      if tr.failedAt.Some? then
        Acquisition(Failed(tr.failedAt.value), Selection + tr.executed, l)
      else
        Acquisition(Committed, FullRun, Commit(l, id))
  }

  /** The calls an acquisition makes: a prefix of the full sequence that ends
      at the first call that raises, with no download unless both streams
      were found. */
  lemma AcquireCalls(id: string, l: Ledger, c: Collaborators)
    ensures var a := Acquire(id, l, c);
      && |a.calls| <= |FullRun| && a.calls == FullRun[..|a.calls|]
      && (a.outcome.Committed? ==> a.calls == FullRun)
      && (a.outcome.Failed? ==>
            && a.calls != [] && a.outcome.stage == a.calls[|a.calls| - 1] && a.outcome.stage in c.raising
            && forall i :: 0 <= i < |a.calls| - 1 ==> a.calls[i] !in c.raising)
      && (a.outcome == NoSuitableStreams <==>
            a.calls == Selection && !(c.hasVideo && c.hasAudio) && forall s :: s in Selection ==> s !in c.raising)
      && (DownloadVideo in a.calls ==> c.hasVideo && c.hasAudio)
  {
    var sel := RunSteps(Selection, c.raising);
    if sel.failedAt.None? && c.hasVideo && c.hasAudio {
      var tr := RunSteps(Transfer, c.raising);
      assert FullRun[..|Selection + tr.executed|] == Selection + tr.executed;
    }
  }

  /** The log append comes before the add to the in-memory set: when the append
      raises, every other call has already succeeded and yet the ledger, file
      and set, is left exactly as it was. */
  lemma LogFailureKeepsIdOut(id: string, l: Ledger, c: Collaborators)
    requires Acquire(id, l, c).outcome == Failed(AppendLog)
    ensures Acquire(id, l, c).calls == FullRun
    ensures Acquire(id, l, c).ledger == l
  {
    AcquireCalls(id, l, c);
    var a := Acquire(id, l, c);
    var n := |a.calls|;
    assert FullRun[n - 1] == AppendLog;
  }

  /** An acquisition never takes anything away: the in-memory set only grows
      and the file only gets text appended. */
  lemma AcquireIsMonotone(id: string, l: Ledger, c: Collaborators)
    ensures l.ids <= Acquire(id, l, c).ledger.ids
    ensures Extends(l.file, Acquire(id, l, c).ledger.file)
  {
    SaveAllExtends(l.file, []);
    SaveAllExtends(l.file, [id]);
    SaveAllAppends(l.file, [id]);
  }

  /** A committed clean id keeps memory and disk in agreement. */
  lemma AcquireKeepsSynced(id: string, l: Ledger, c: Collaborators)
    requires Synced(l) && Clean(id)
    ensures Synced(Acquire(id, l, c).ledger)
  {
    CommitKeepsSynced(l, id);
  }

  /** The files an acquisition leaves in the download directory. */
  datatype Artefact = VideoTemp | AudioTemp | Output

  /** The calls that completed without raising. */
  function Completed(a: Acquisition): (done: seq<Stage>)
    requires a.outcome.Failed? ==> a.calls != []
    ensures |done| <= |a.calls| && done == a.calls[..|done|]
  {
    if a.outcome.Failed? then a.calls[..|a.calls| - 1] else a.calls
  }

  /** Files present after the given calls completed: each download creates its
      temporary file, the merge creates the output and each removal deletes
      its temporary file. */
  function Artefacts(done: seq<Stage>): set<Artefact> {
    (if DownloadVideo in done && RemoveVideo !in done then {VideoTemp} else {})
    + (if DownloadAudio in done && RemoveAudio !in done then {AudioTemp} else {})
    + (if Merge in done then {Output} else {})
  }

  /** A committed acquisition leaves exactly the merged output: both
      temporary files were removed (main.py:73-75). */
  lemma CommitLeavesOutputOnly(id: string, l: Ledger, c: Collaborators)
    requires Acquire(id, l, c).outcome.Committed?
    ensures Artefacts(Completed(Acquire(id, l, c))) == {Output}
  {
    AcquireCalls(id, l, c);
    var done := Completed(Acquire(id, l, c));
    assert done == FullRun;
    assert done[3] == DownloadVideo && done[4] == DownloadAudio && done[5] == Merge;
    assert done[6] == RemoveVideo && done[7] == RemoveAudio;
  }

  /** Temporary files are removed only on the success path: a failed merge
      leaves both of them behind and no output. */
  lemma FailedMergeLeavesTemps(id: string, l: Ledger, c: Collaborators)
    requires Acquire(id, l, c).outcome == Failed(Merge)
    ensures Artefacts(Completed(Acquire(id, l, c))) == {VideoTemp, AudioTemp}
  {
    AcquireCalls(id, l, c);
    var a := Acquire(id, l, c);
    assert a.calls == FullRun[..6] by {
      assert FullRun[|a.calls| - 1] == Merge;
    }
    assert Completed(a) == [Lookup, SelectVideo, SelectAudio, DownloadVideo, DownloadAudio];
  }

  /** A failed audio download leaves the video's temporary file behind. */
  lemma FailedAudioLeavesVideo(id: string, l: Ledger, c: Collaborators)
    requires Acquire(id, l, c).outcome == Failed(DownloadAudio)
    ensures Artefacts(Completed(Acquire(id, l, c))) == {VideoTemp}
  {
    AcquireCalls(id, l, c);
    var a := Acquire(id, l, c);
    assert a.calls == FullRun[..5] by {
      assert FullRun[|a.calls| - 1] == DownloadAudio;
    }
    assert Completed(a) == [Lookup, SelectVideo, SelectAudio, DownloadVideo];
  }
}

=== FILE: catalog.dfy ===
/** The catalog as the run sees it (main.py:102-148): the replies to the page
    requests and, for each listed video, the reply to its details lookup. The
    network is replaced by these replies: the k-th page request receives the
    k-th reply. */
module Catalog {
  import opened Options
  import opened AcquisitionEngine

  /** The reply to one video's details lookup (main.py:129-134). */
  datatype Details =
    | LookupFailed            // the request or its status check raised
    | NoDetails               // the reply held no items
    | Duration(value: string) // the first item's duration

  /** A listed video, with its details and the behaviour of the collaborators
      an acquisition of it would call. */
  datatype Item = Item(id: string, details: Details, streams: Collaborators)

  /** The reply to one page request (main.py:114-116, 145). */
  datatype Reply =
    | PageFailed
    | Page(items: seq<Item>, next: Option<string>)

  /** Why the run ended. */
  datatype Stop =
    | Exhausted     // a page came back without a usable next token
    | PageError     // a page request raised
    | DetailsError  // a details lookup raised
    | ChannelError  // the uploads playlist could not be resolved
    | Truncated     // the supplied replies ran out while a token remained

  /** `if not next_page_token: break` (main.py:146-147) continues only for a
      present, non-empty token. */
  predicate HasNext(next: Option<string>) {
    next.Some? && next.value != ""
  }

  /** No details lookup in `items` raises. */
  predicate Resolved(items: seq<Item>) {
    forall i :: 0 <= i < |items| ==> !items[i].details.LookupFailed?
  }

  lemma ResolvedTail(items: seq<Item>)
    requires Resolved(items) && items != []
    ensures Resolved(items[1..])
  {
    forall i | 0 <= i < |items[1..]| ensures !items[1..][i].details.LookupFailed? {
      assert items[1..][i] == items[i + 1];
    }
  }

  lemma ResolvedAppend(a: seq<Item>, b: seq<Item>)
    requires Resolved(a) && Resolved(b)
    ensures Resolved(a + b)
  {
    forall i | 0 <= i < |a + b| ensures !(a + b)[i].details.LookupFailed? {
      if i >= |a| {
        assert (a + b)[i] == b[i - |a|];
      }
    }
  }

  /** The position of the first item whose details lookup raises, or the
      length when none does. */
  function FirstFailure(items: seq<Item>): (n: nat)
    ensures n <= |items|
    ensures Resolved(items[..n])
    ensures n < |items| ==> items[n].details.LookupFailed?
  {
    if items == [] then 0
    else if items[0].details.LookupFailed? then 0
    else
      var n := FirstFailure(items[1..]);
      assert items[..n + 1] == [items[0]] + items[1..][..n];
      n + 1
  }

  /** The items of one reply the walk reaches: none of a failed page, and of
      a page those before the first raising details lookup. */
  function Reached(r: Reply): seq<Item> {
    match r
    case PageFailed => []
    case Page(items, _) => items[..FirstFailure(items)]
  }

  /** The items the walk reaches over the `m` replies from the k-th on,
      reply after reply. */
  function ReachedFrom(replies: seq<Reply>, k: nat, m: nat): seq<Item>
    requires k + m <= |replies|
    decreases m
  {
    if m == 0 then [] else Reached(replies[k]) + ReachedFrom(replies, k + 1, m - 1)
  }

  /** How the walk treats one page reply: stops with the reason, or goes on
      (reported as `Truncated`, which no reply stops with). */
  function StopAt(r: Reply): Stop {
    match r
    case PageFailed => PageError
    case Page(items, next) =>
      if FirstFailure(items) < |items| then DetailsError
      else if !HasNext(next) then Exhausted
      else Truncated
  }

  /** The items the walk reaches, the page tokens it sends and why it stops,
      independently of what happens to each item. */
  datatype Schedule = Schedule(items: seq<Item>, requests: seq<Option<string>>, stop: Stop)

  /** The walk from the k-th request on, sending `token`. */
  function SchedulePages(replies: seq<Reply>, k: nat, token: Option<string>): (s: Schedule)
    requires k <= |replies|
    ensures Resolved(s.items)
    ensures k + |s.requests| <= |replies|
    ensures k < |replies| <==> s.requests != []
    ensures s.requests != [] ==> s.requests[0] == token
    // Every page but the last offered a usable token, and that token is the
    // one the next request sends.
    ensures forall j :: k <= j < k + |s.requests| - 1 ==>
      && replies[j].Page?
      && HasNext(replies[j].next)
      && s.requests[j - k + 1] == replies[j].next
    // The walk stops at the last reply it requested, for that reply's reason.
    ensures s.requests != [] ==> s.stop == StopAt(replies[k + |s.requests| - 1])
    ensures s.requests == [] ==> s.stop == Truncated
    ensures s.stop == Truncated ==> k + |s.requests| == |replies|
    decreases |replies| - k
  {
    if k == |replies| then Schedule([], [], Truncated)
    else match replies[k]
      case PageFailed => Schedule([], [token], PageError)
      case Page(items, next) =>
        var n := FirstFailure(items);
        if n < |items| then Schedule(items[..n], [token], DetailsError)
        else if !HasNext(next) then Schedule(items, [token], Exhausted)
        else
          var rest := SchedulePages(replies, k + 1, next);
          assert items[..n] == items;
          ResolvedAppend(items, rest.items);
          Schedule(items + rest.items, [token] + rest.requests, rest.stop)
  }

  /** The items the walk reaches are those of every reply it requested, each
      page up to its first raising details lookup: all items of the pages
      before an abort, and the failing page's items before the raising
      lookup. */
  lemma {:induction false} ScheduleReaches(replies: seq<Reply>, k: nat, token: Option<string>)
    requires k <= |replies|
    ensures var s := SchedulePages(replies, k, token);
      s.items == ReachedFrom(replies, k, |s.requests|)
    decreases |replies| - k
  {
    if k < |replies| {
      ReachedOne(replies, k);
      var r := replies[k];
      if r.Page? {
        var n := FirstFailure(r.items);
        if n == |r.items| {
          assert r.items[..n] == r.items;
          if HasNext(r.next) {
            ScheduleReaches(replies, k + 1, r.next);
          }
        }
      }
    }
  }

  /** The walk over the single reply `k` reaches what that reply offers. */
  lemma ReachedOne(replies: seq<Reply>, k: nat)
    requires k < |replies|
    ensures ReachedFrom(replies, k, 1) == Reached(replies[k])
  {
    assert Reached(replies[k]) + [] == Reached(replies[k]);
  }

  /** A lookup that never raises lets the walk through every item. */
  lemma {:induction false} FirstFailureResolved(items: seq<Item>)
    requires Resolved(items)
    ensures FirstFailure(items) == |items|
  {
    if items != [] {
      ResolvedTail(items);
      FirstFailureResolved(items[1..]);
    }
  }

  /** All listed items of the pages, page after page. */
  function Flatten(replies: seq<Reply>): seq<Item> {
    if replies == [] then []
    else (if replies[0].Page? then replies[0].items else []) + Flatten(replies[1..])
  }

  /** A catalog whose requests all succeed: every reply is a page whose
      lookups succeed, every page but the last offers a usable token and the
      last does not. */
  predicate Complete(replies: seq<Reply>) {
    && |replies| > 0
    && (forall j :: 0 <= j < |replies| ==> replies[j].Page? && Resolved(replies[j].items))
    && (forall j :: 0 <= j < |replies| - 1 ==> HasNext(replies[j].next))
    && !HasNext(replies[|replies| - 1].next)
  }

  /** On a complete catalog the walk reaches every listed item exactly once,
      in page order, sends one request per page and ends because the pages
      ran out. */
  lemma {:induction false} CompleteCatalogFrom(replies: seq<Reply>, k: nat, token: Option<string>)
    requires Complete(replies) && k < |replies|
    ensures SchedulePages(replies, k, token).items == Flatten(replies[k..])
    ensures |SchedulePages(replies, k, token).requests| == |replies| - k
    ensures SchedulePages(replies, k, token).stop == Exhausted
    decreases |replies| - k
  {
    var r := replies[k];
    FirstFailureResolved(r.items);
    assert replies[k..][1..] == replies[k + 1..];
    if k + 1 < |replies| {
      CompleteCatalogFrom(replies, k + 1, r.next);
    } else {
      assert replies[k + 1..] == [];
    }
  }

  lemma CompleteCatalog(replies: seq<Reply>)
    requires Complete(replies)
    ensures var s := SchedulePages(replies, 0, None);
      && s.items == Flatten(replies)
      && |s.requests| == |replies|
      && s.requests[0] == None
      && (forall j :: 0 <= j < |replies| - 1 ==> s.requests[j + 1] == replies[j].next)
      && s.stop == Exhausted
  {
    CompleteCatalogFrom(replies, 0, None);
    assert replies[0..] == replies;
  }

  /** A page request that raises ends the walk: after a first page whose
      lookups all succeed and whose token is usable, a failing second request
      leaves exactly the first page's items reached. */
  lemma SecondPageFails(items: seq<Item>, t: string)
    requires Resolved(items) && t != ""
    ensures var s := SchedulePages([Page(items, Some(t)), PageFailed], 0, None);
      && s.items == items
      && s.requests == [None, Some(t)]
      && s.stop == PageError
  {
    FirstFailureResolved(items);
    var replies := [Page(items, Some(t)), PageFailed];
    ScheduleReaches(replies, 0, None);
    assert items[..|items|] == items;
  }

  /** How the catalog is cut into pages does not matter: two complete
      paginations of the same listing are walked over the same items. */
  lemma PageSizeIrrelevant(a: seq<Reply>, b: seq<Reply>)
    requires Complete(a) && Complete(b) && Flatten(a) == Flatten(b)
    ensures SchedulePages(a, 0, None).items == SchedulePages(b, 0, None).items
    ensures SchedulePages(a, 0, None).stop == SchedulePages(b, 0, None).stop == Exhausted
  {
    CompleteCatalog(a);
    CompleteCatalog(b);
  }
}

=== FILE: classifier.dfy ===
/** The short-form test applied to the duration string the catalog returns for
    each video (main.py:136). It is a substring heuristic, not a parser of the
    duration format of ISO 8601 (section 4.4.3 of ISO 8601:2004). */
module ShortClassifier {
  import opened Text

  /** `"PT" in duration and "S" in duration and "M" not in duration`. */
  predicate IsShort(duration: string) {
    Contains(duration, "PT") && Contains(duration, "S") && !Contains(duration, "M")
  }

  /** The heuristic in terms of characters: a designator pair "PT", some 'S'
      and no 'M' anywhere. */
  lemma IsShortByMarkers(d: string)
    ensures IsShort(d) <==> Contains(d, "PT") && 'S' in d && 'M' !in d
  {
    ContainsChar(d, 'S');
    ContainsChar(d, 'M');
  }

  /** Any duration mentioning minutes is rejected, whatever else it holds. */
  lemma MinutesNeverShort(d: string)
    requires 'M' in d
    ensures !IsShort(d)
  {
    IsShortByMarkers(d);
  }

  /** Durations of a few seconds are short. */
  lemma SecondsExamples()
    ensures IsShort("PT45S")
    ensures IsShort("PT30S")
  {
    assert StartsWith("PT45S", "PT");
    IsShortByMarkers("PT45S");
    assert StartsWith("PT30S", "PT");
    IsShortByMarkers("PT30S");
  }

  /** Two minutes and ten seconds is not short. */
  lemma MinutesExample()
    ensures !IsShort("PT2M10S")
  {
    MinutesNeverShort("PT2M10S");
  }

  // A reference encoder for the durations the catalog reports, so that the
  // heuristic can be compared with the length of the video it describes.

  function Digit(n: nat): (c: char)
    requires n < 10
    ensures '0' <= c <= '9'
  {
    (48 + n) as char
  }

  /** Decimal digits of `n`, most significant first, without leading zeros. */
  function Decimal(n: nat): (s: string)
    ensures |s| > 0
    ensures Digits(s)
    ensures n >= 10 ==> s[0] != '0'
    decreases n
  {
    if n < 10 then [Digit(n)] else Decimal(n / 10) + [Digit(n % 10)]
  }

  /** The value of a string of decimal digits. */
  function DigitsValue(s: string): int
    requires Digits(s)
  {
    if s == [] then 0 else 10 * DigitsValue(s[..|s| - 1]) + (s[|s| - 1] as int - 48)
  }

  lemma {:induction false} DecimalValue(n: nat)
    ensures DigitsValue(Decimal(n)) == n
    decreases n
  {
    if n >= 10 {
      var s := Decimal(n);
      assert s[..|s| - 1] == Decimal(n / 10);
      DecimalValue(n / 10);
    }
  }

  /** Hours, minutes and seconds written the way the catalog writes them:
      "PT" followed by each non-zero component and its designator, or "P0D"
      for a zero length. */
  function Encode(h: nat, m: nat, s: nat): string {
    if h == 0 && m == 0 && s == 0 then "P0D"
    else
      "PT"
      + (if h > 0 then Decimal(h) + "H" else "")
      + (if m > 0 then Decimal(m) + "M" else "")
      + (if s > 0 then Decimal(s) + "S" else "")
  }

  /** Every character is a decimal digit. */
  predicate Digits(s: string) {
    forall i :: 0 <= i < |s| ==> '0' <= s[i] <= '9'
  }

  lemma NoMarkerInDigits(s: string, c: char)
    requires Digits(s) && !('0' <= c <= '9')
    ensures c !in s
  {
  }

  /** On an encoded duration the heuristic accepts exactly the lengths with no
      minutes component and a non-zero seconds component; hours are ignored. */
  lemma {:induction false} EncodedIsShort(h: nat, m: nat, s: nat)
    ensures IsShort(Encode(h, m, s)) <==> m == 0 && s > 0
  {
    var e := Encode(h, m, s);
    IsShortByMarkers(e);
    if h == 0 && m == 0 && s == 0 {
      assert e == "P0D";
    } else {
      var hp := if h > 0 then Decimal(h) + "H" else "";
      var mp := if m > 0 then Decimal(m) + "M" else "";
      var sp := if s > 0 then Decimal(s) + "S" else "";
      assert e == "PT" + hp + mp + sp;
      assert StartsWith(e, "PT");
      if h > 0 {
        NoMarkerInDigits(Decimal(h), 'M');
        NoMarkerInDigits(Decimal(h), 'S');
      }
      if m > 0 {
        NoMarkerInDigits(Decimal(m), 'S');
        assert mp[|mp| - 1] == 'M';
      }
      if s > 0 {
        NoMarkerInDigits(Decimal(s), 'M');
        assert sp[|sp| - 1] == 'S';
      }
      assert 'M' in e <==> 'M' in mp;
      assert 'S' in e <==> 'S' in sp;
    }
  }

  /** For videos shorter than an hour, with components in their usual ranges,
      the heuristic is exactly "between 1 and 59 seconds long". */
  lemma ShortUnderAnHour(m: nat, s: nat)
    requires m < 60 && s < 60
    ensures IsShort(Encode(0, m, s)) <==> 0 < 60 * m + s < 60
  {
    EncodedIsShort(0, m, s);
  }

  /** The approximation the heuristic makes: a video of one hour and five
      seconds (3605 seconds) is reported as short. */
  lemma HourLongVideoCountsAsShort()
    ensures Encode(1, 0, 5) == "PT1H5S"
    ensures IsShort(Encode(1, 0, 5))
  {
    EncodedIsShort(1, 0, 5);
  }
}

=== FILE: ledger.dfy ===
/** The record of videos already fetched (main.py:21-42): a text log with one
    id per line, kept on disk, and the in-memory set of ids loaded from it. */
module DedupLedger {
  import opened Text

  /** The tracking file: missing before the first save, otherwise its text as
      Python reads it in text mode. */
  datatype LogFile = Absent | Present(text: string)

  function Contents(f: LogFile): string {
    match f
    case Absent => ""
    case Present(t) => t
  }

  /** Every save ends with a line break, so a log written only by saves is
      empty or ends with one. */
  predicate WellFormed(f: LogFile) {
    f.Absent? || Terminated(f.text)
  }

  /** `g` is `f` with text appended: nothing already written is lost. */
  predicate Extends(f: LogFile, g: LogFile) {
    && (f.Present? ==> g.Present?)
    && |Contents(f)| <= |Contents(g)|
    && Contents(g)[..|Contents(f)|] == Contents(f)
  }

  /** The set of the given lines, each stripped of surrounding white space. */
  function StripAll(ls: seq<string>): set<string>
    decreases |ls|
  {
    if ls == [] then {} else {Strip(ls[0])} + StripAll(ls[1..])
  }

  lemma {:induction false} StripAllClean(ls: seq<string>)
    requires NoBreaks(ls)
    ensures forall x :: x in StripAll(ls) ==> Clean(x)
    decreases |ls|
  {
    if ls != [] {
      StrippedIsClean(ls[0]);
      StripAllClean(ls[1..]);
    }
  }

  /** The elements of `StripAll(ls)` are exactly the stripped lines. */
  lemma {:induction false} StripAllMembers(ls: seq<string>, x: string)
    ensures x in StripAll(ls) <==> exists i :: 0 <= i < |ls| && x == Strip(ls[i])
    decreases |ls|
  {
    if ls != [] {
      StripAllMembers(ls[1..], x);
      if exists i :: 1 <= i < |ls| && x == Strip(ls[i]) {
        var i :| 1 <= i < |ls| && x == Strip(ls[i]);
        assert x == Strip(ls[1..][i - 1]);
      }
      if exists i :: 0 <= i < |ls[1..]| && x == Strip(ls[1..][i]) {
        var i :| 0 <= i < |ls[1..]| && x == Strip(ls[1..][i]);
        assert x == Strip(ls[i + 1]);
      }
    }
  }

  /** A stripped line is clean when the line had no break in it. */
  lemma {:induction false} StrippedIsClean(l: string)
    ensures '\n' !in l ==> Clean(Strip(l))
  {
    var x := Strip(l);
    var i, j := StripStart(l), StripEnd(l);
    assert forall k :: 0 <= k < |x| ==> x[k] == l[i + k];
  }

  lemma {:induction false} StripAllAppend(a: seq<string>, b: seq<string>)
    ensures StripAll(a + b) == StripAll(a) + StripAll(b)
    decreases |a|
  {
    if a != [] {
      assert (a + b)[1..] == a[1..] + b;
      StripAllAppend(a[1..], b);
    } else {
      assert a + b == b;
    }
  }

  /** `load_downloaded_ids`: the empty set when the file is missing, otherwise
      the set of its lines with surrounding white space stripped. */
  function Load(f: LogFile): (ids: set<string>)
    ensures f.Absent? ==> ids == {}
  {
    match f
    case Absent => {}
    case Present(t) => StripAll(Lines(t))
  }

  /** Every loaded id is clean: stripping leaves no white space around it and
      a line never holds a line break. */
  lemma {:induction false} LoadIsClean(f: LogFile)
    ensures forall x :: x in Load(f) ==> Clean(x)
  {
    if f.Present? {
      LinesNoBreaks(f.text, 0);
      StripAllClean(Lines(f.text));
    }
  }

  /** `save_downloaded_id`: opens the file for appending (creating it when
      missing) and writes the id followed by a line break. */
  function Save(f: LogFile, id: string): (g: LogFile)
    ensures g.Present? && WellFormed(g)
  {
    Present(Contents(f) + id + "\n")
  }

  /** `is_video_downloaded`: plain membership in the in-memory set. */
  predicate IsDownloaded(id: string, ids: set<string>) {
    id in ids
  }

  /** Any present file loads as the set of its lines, each stripped, where a
      line is a maximal run without a line break and a final unterminated run
      counts as a line. */
  lemma LoadMembers(t: string, x: string)
    ensures x in Load(Present(t)) <==> exists i :: 0 <= i < |Lines(t)| && x == Strip(Lines(t)[i])
  {
    StripAllMembers(Lines(t), x);
  }

  /** A log written as a sequence of lines loads as the set of those lines,
      stripped; repeated lines collapse into one element. */
  lemma {:induction false} LoadOfJoin(ls: seq<string>, x: string)
    requires NoBreaks(ls)
    ensures x in Load(Present(Join(ls))) <==> exists i :: 0 <= i < |ls| && x == Strip(ls[i])
  {
    LinesJoin(ls);
    StripAllMembers(ls, x);
  }

  /** Reloading after a save adds exactly the stripped id and keeps every id
      loaded before, provided the log ended with a line break. */
  lemma {:induction false} SaveThenLoad(f: LogFile, id: string)
    requires WellFormed(f) && '\n' !in id
    ensures Load(Save(f, id)) == Load(f) + {Strip(id)}
  {
    var t := Contents(f);
    assert Contents(Save(f, id)) == t + (id + "\n");
    AppendLine(t, id);
    StripAllAppend(Lines(t), [id]);
    assert StripAll([id]) == {Strip(id)};
  }

  /** The round trip the tracking file exists for: a saved clean id is found
      again by the next load. */
  lemma {:induction false} SavedIdIsReloaded(f: LogFile, id: string)
    requires WellFormed(f) && Clean(id)
    ensures id in Load(Save(f, id))
    ensures Load(f) <= Load(Save(f, id))
  {
    SaveThenLoad(f, id);
    StripIdentity(id);
  }

  /** Saving an id that is already recorded leaves the loaded set unchanged:
      the duplicate line is harmless. */
  lemma {:induction false} SaveDuplicate(f: LogFile, id: string)
    requires WellFormed(f) && id in Load(f)
    ensures Load(Save(f, id)) == Load(f)
  {
    var before := Load(f);
    LoadIsClean(f);
    SaveThenLoad(f, id);
    StripIdentity(id);
    assert before + {id} == before;
  }

  /** A log holding a single line loads as that line, stripped. */
  lemma {:induction false} LoadOneLine(l: string)
    requires '\n' !in l
    ensures Load(Present(l + "\n")) == {Strip(l)}
  {
    LinesOfLine(l);
    assert StripAll([l]) == {Strip(l)};
  }

  /** A log holding one clean id without a final line break still loads as
      that id: the last line counts even when unterminated. */
  lemma {:induction false} LoadUnterminatedLine(a: string)
    requires Clean(a) && a != []
    ensures Load(Present(a)) == {a}
  {
    assert LineEnd(a, 0) == |a|;
    assert Lines(a) == [a];
    assert StripAll([a]) == {Strip(a)};
    StripIdentity(a);
  }

  /** A file whose last line has no line break loads as it would with one:
      a multi-line file keeps its final id. */
  lemma {:induction false} LoadUnterminated(t: string)
    requires !Terminated(t)
    ensures Load(Present(t)) == Load(Present(t + "\n"))
  {
    LinesUnterminated(t);
  }

  /** What the line-break requirement guards against: appending to a log whose
      last line `a` is unterminated glues the new id onto it, so neither the
      id nor that line reloads. */
  lemma {:induction false} UnterminatedLogLosesIds(a: string, id: string)
    requires Clean(a) && Clean(id) && a != [] && id != []
    ensures Load(Save(Present(a), id)) == {a + id}
    ensures id !in Load(Save(Present(a), id))
    ensures a !in Load(Save(Present(a), id))
  {
    var t := a + id;
    assert Save(Present(a), id) == Present(t + "\n");
    CleanConcat(a, id);
    LoadOneLine(t);
    StripIdentity(t);
    assert |t| > |a| && |t| > |id|;
  }

  /** Two clean, non-empty strings written one after the other are clean. */
  lemma CleanConcat(a: string, b: string)
    requires Clean(a) && Clean(b) && a != [] && b != []
    ensures Clean(a + b)
  {
    var t := a + b;
    assert forall i :: 0 <= i < |t| ==> t[i] == if i < |a| then a[i] else b[i - |a|];
    assert t[0] == a[0] && t[|t| - 1] == b[|b| - 1];
  }

  /** What the clean-id requirement guards against: an id with white space
      around it is reloaded in stripped form, so it is not found again. */
  lemma {:induction false} PaddedIdReloadsStripped(p: string, x: string)
    requires AllSpace(p) && p != [] && '\n' !in p && Clean(x)
    ensures Load(Save(Absent, p + x)) == {x}
    ensures p + x !in Load(Save(Absent, p + x))
  {
    var t := p + x;
    assert Save(Absent, t) == Present(t + "\n");
    assert '\n' !in t by {
      assert forall i :: 0 <= i < |t| ==> t[i] == if i < |p| then p[i] else x[i - |p|];
    }
    LoadOneLine(t);
    assert Strip(t) == x by {
      StripPadded(p, x, "");
      assert p + x + "" == t;
    }
  }

  /** The ledger during a run: the tracking file and the in-memory set. */
  datatype Ledger = Ledger(file: LogFile, ids: set<string>)

  /** Memory and disk agree: reloading the file gives the in-memory set. */
  predicate Synced(l: Ledger) {
    WellFormed(l.file) && Load(l.file) == l.ids
  }

  /** The ledger at the start of a run (main.py:152). */
  function Open(f: LogFile): (l: Ledger)
    ensures l.file == f
    ensures WellFormed(f) ==> Synced(l)
  {
    Ledger(f, Load(f))
  }

  /** Recording a finished video: the append to the file, then the add to the
      in-memory set (main.py:77-78). */
  function Commit(l: Ledger, id: string): (l': Ledger)
    ensures id in l'.ids && l.ids <= l'.ids
    ensures l'.file.Present?
  {
    Ledger(Save(l.file, id), l.ids + {id})
  }

  lemma {:induction false} CommitKeepsSynced(l: Ledger, id: string)
    requires Synced(l) && Clean(id)
    ensures Synced(Commit(l, id))
  {
    SaveThenLoad(l.file, id);
    StripIdentity(id);
  }

  /** Saving several ids one after the other, in order. */
  function SaveAll(f: LogFile, ids: seq<string>): (g: LogFile)
    decreases |ids|
  {
    if ids == [] then f else SaveAll(Save(f, ids[0]), ids[1..])
  }

  /** The first save of a series comes first. */
  lemma SaveAllFirst(f: LogFile, id: string, ids: seq<string>)
    ensures SaveAll(f, [id] + ids) == SaveAll(Save(f, id), ids)
  {
    assert ([id] + ids)[0] == id && ([id] + ids)[1..] == ids;
  }

  /** The file after a series of saves is the old text followed by one line per
      saved id. */
  lemma {:induction false} SaveAllAppends(f: LogFile, ids: seq<string>)
    ensures Contents(SaveAll(f, ids)) == Contents(f) + Join(ids)
    ensures ids == [] ==> SaveAll(f, ids) == f
    ensures ids != [] ==> SaveAll(f, ids).Present?
    decreases |ids|
  {
    if ids != [] {
      SaveAllAppends(Save(f, ids[0]), ids[1..]);
    }
  }

  /** Saving never loses what the file already held: the log is append-only. */
  lemma {:induction false} SaveAllExtends(f: LogFile, ids: seq<string>)
    ensures Extends(f, SaveAll(f, ids))
  {
    SaveAllAppends(f, ids);
    if ids != [] {
      var t := Contents(f) + Join(ids);
      assert t[..|Contents(f)|] == Contents(f);
    }
  }

  /** Two clean ids saved to a missing file reload as exactly those two. */
  lemma SaveTwoThenLoad(a: string, b: string)
    requires Clean(a) && Clean(b)
    ensures Load(Save(Save(Absent, a), b)) == {a, b}
  {
    SaveCleanThenLoad(Absent, a);
    SaveCleanThenLoad(Save(Absent, a), b);
  }

  /** Every id of the sequence is clean. */
  predicate AllClean(ids: seq<string>) {
    forall i :: 0 <= i < |ids| ==> Clean(ids[i])
  }

  /** A clean id reloads as itself. */
  lemma {:induction false} SaveCleanThenLoad(f: LogFile, id: string)
    requires WellFormed(f) && Clean(id)
    ensures Load(Save(f, id)) == Load(f) + {id}
  {
    SaveThenLoad(f, id);
    StripIdentity(id);
  }

  /** Reloading after a series of saves of clean ids gives the old ids plus
      exactly the saved ones. */
  lemma {:induction false} SaveAllThenLoad(f: LogFile, ids: seq<string>)
    requires WellFormed(f) && AllClean(ids)
    ensures WellFormed(SaveAll(f, ids))
    ensures Load(SaveAll(f, ids)) == Load(f) + Elements(ids)
    decreases |ids|, 1
  {
    if ids != [] {
      assert Clean(ids[0]);
      assert AllClean(ids[1..]) by {
        forall i | 0 <= i < |ids[1..]| ensures Clean(ids[1..][i]) {
          assert ids[1..][i] == ids[i + 1];
        }
      }
      SaveAllStep(f, ids);
    }
  }

  /** One save followed by the rest: the step of `SaveAllThenLoad`. */
  lemma {:induction false} SaveAllStep(f: LogFile, ids: seq<string>)
    requires WellFormed(f) && ids != [] && Clean(ids[0]) && AllClean(ids[1..])
    ensures WellFormed(SaveAll(f, ids))
    ensures Load(SaveAll(f, ids)) == Load(f) + Elements(ids)
    decreases |ids|, 0
  {
    var g := Save(f, ids[0]);
    SaveCleanThenLoad(f, ids[0]);
    SaveAllThenLoad(g, ids[1..]);
    assert SaveAll(f, ids) == SaveAll(g, ids[1..]);
    assert Elements(ids) == {ids[0]} + Elements(ids[1..]);
  }

  /** The ids of a sequence, as a set. */
  function Elements(ids: seq<string>): (s: set<string>)
    ensures forall x :: x in s <==> x in ids
  {
    set x | x in ids
  }
}

=== FILE: options.dfy ===
/** The optional value used wherever the source works with a value that may be
    missing (a JSON field that is absent, a search that finds nothing). */
module Options {

  datatype Option<+T> = None | Some(value: T)
}

=== FILE: pipeline.dfy ===
/** The run (`run_daemon`, main.py:150-158) and the per-item loop of
    `fetch_videos_from_playlist` (main.py:113-148): classify each listed video,
    consult the ledger, acquire, while one ledger is threaded through the whole
    walk. */
module Pipeline {
  import opened Options
  import opened Text
  import opened ShortClassifier
  import opened DedupLedger
  import opened AcquisitionEngine
  import opened Catalog

  /** What the loop did with one listed video. */
  datatype Decision =
    | Undetailed                  // no details came back (main.py:142-143)
    | NotShort                    // main.py:140-141
    | AlreadyDownloaded           // main.py:138
    | Attempted(outcome: Outcome) // main.py:139

  datatype Visit = Visit(item: Item, decision: Decision)

  /** The item has a duration and the heuristic calls it short. */
  predicate Qualifies(it: Item) {
    it.details.Duration? && IsShort(it.details.value)
  }

  /** Visits made so far and the ledger they leave. */
  datatype Pass = Pass(visits: seq<Visit>, ledger: Ledger)

  /** One iteration of the item loop (main.py:118-143) for an item whose
      details lookup did not raise. */
  function ProcessItem(it: Item, l: Ledger): (p: Pass)
    requires !it.details.LookupFailed?
    ensures |p.visits| == 1 && p.visits[0].item == it
    ensures p.visits[0].decision == Undetailed <==> it.details.NoDetails?
    ensures p.visits[0].decision == NotShort <==> it.details.Duration? && !IsShort(it.details.value)
    ensures p.visits[0].decision == AlreadyDownloaded <==> Qualifies(it) && it.id in l.ids
    ensures p.visits[0].decision.Attempted? <==> Qualifies(it) && it.id !in l.ids
    ensures p.visits[0].decision == Attempted(Committed) <==>
      && Qualifies(it) && it.id !in l.ids
      && Succeeds(it.streams)
    ensures p.ledger == if p.visits[0].decision == Attempted(Committed) then Commit(l, it.id) else l
  {
    match it.details
    case NoDetails => Pass([Visit(it, Undetailed)], l)
    case Duration(d) =>
      if !IsShort(d) then Pass([Visit(it, NotShort)], l)
      else if IsDownloaded(it.id, l.ids) then Pass([Visit(it, AlreadyDownloaded)], l)
      else
        var a := Acquire(it.id, l, it.streams);
        Pass([Visit(it, Attempted(a.outcome))], a.ledger)
  }

  /** The ids of the committed acquisitions among `vs`, in order. */
  function CommittedIds(vs: seq<Visit>): seq<string> {
    if vs == [] then []
    else (if vs[0].decision == Attempted(Committed) then [vs[0].item.id] else []) + CommittedIds(vs[1..])
  }

  lemma CommittedIdsOne(v: Visit)
    ensures CommittedIds([v]) == if v.decision == Attempted(Committed) then [v.item.id] else []
  {
    assert [v][1..] == [];
  }

  lemma {:induction false} CommittedIdsAppend(a: seq<Visit>, b: seq<Visit>)
    ensures CommittedIds(a + b) == CommittedIds(a) + CommittedIds(b)
    decreases |a|
  {
    if a == [] {
      assert a + b == b;
    } else {
      assert (a + b)[0] == a[0] && (a + b)[1..] == a[1..] + b;
      CommittedIdsAppend(a[1..], b);
    }
  }

  /** An id is among the committed ones exactly when some visit committed it. */
  lemma {:induction false} CommittedIdsMembers(vs: seq<Visit>, x: string)
    ensures x in CommittedIds(vs) <==>
      exists i :: 0 <= i < |vs| && vs[i].decision == Attempted(Committed) && vs[i].item.id == x
    decreases |vs|
  {
    if vs != [] {
      CommittedIdsMembers(vs[1..], x);
      if x in CommittedIds(vs[1..]) {
        var i :| 0 <= i < |vs[1..]| && vs[1..][i].decision == Attempted(Committed) && vs[1..][i].item.id == x;
        assert vs[i + 1] == vs[1..][i];
      }
      if exists i :: 0 <= i < |vs| && vs[i].decision == Attempted(Committed) && vs[i].item.id == x {
        var i :| 0 <= i < |vs| && vs[i].decision == Attempted(Committed) && vs[i].item.id == x;
        if i > 0 {
          assert vs[1..][i - 1] == vs[i];
        }
      }
    }
  }

  /** The item loop over one page, from ledger `l`. */
  function WalkItems(items: seq<Item>, l: Ledger): (p: Pass)
    requires Resolved(items)
    // Every item is visited once, in order.
    ensures |p.visits| == |items|
    ensures forall i :: 0 <= i < |items| ==> p.visits[i].item == items[i]
    // The ledger gains exactly the committed ids, each appended to the file
    // in the order of the commits.
    ensures p.ledger.ids == l.ids + Elements(CommittedIds(p.visits))
    ensures p.ledger.file == SaveAll(l.file, CommittedIds(p.visits))
    decreases |items|
  {
    if items == [] then Pass([], l)
    else
      ResolvedTail(items);
      var first := ProcessItem(items[0], l);
      var rest := WalkItems(items[1..], first.ledger);
      WalkItemsStep(items, l, first, rest);
      Pass(first.visits + rest.visits, rest.ledger)
  }

  /** The step of `WalkItems`: the first item's visit followed by the loop over
      the rest keeps the loop's contract. */
  lemma WalkItemsStep(items: seq<Item>, l: Ledger, first: Pass, rest: Pass)
    requires items != [] && !items[0].details.LookupFailed?
    requires first == ProcessItem(items[0], l)
    requires |rest.visits| == |items| - 1
    requires forall i :: 0 <= i < |rest.visits| ==> rest.visits[i].item == items[i + 1]
    requires rest.ledger.ids == first.ledger.ids + Elements(CommittedIds(rest.visits))
    requires rest.ledger.file == SaveAll(first.ledger.file, CommittedIds(rest.visits))
    ensures var vs := first.visits + rest.visits;
      && |vs| == |items|
      && (forall i :: 0 <= i < |items| ==> vs[i].item == items[i])
      && rest.ledger.ids == l.ids + Elements(CommittedIds(vs))
      && rest.ledger.file == SaveAll(l.file, CommittedIds(vs))
  {
    var vs := first.visits + rest.visits;
    assert forall i :: 1 <= i < |items| ==> vs[i] == rest.visits[i - 1];
    var c := CommittedIds(rest.visits);
    CommittedIdsAppend(first.visits, rest.visits);
    CommittedIdsOne(first.visits[0]);
    assert first.visits == [first.visits[0]];
    assert [] + c == c;
    SaveAllFirst(l.file, items[0].id, c);
  }

  /** The ids known before the i-th visit: those loaded at the start plus
      those committed by the earlier visits. */
  function Known(l: Ledger, vs: seq<Visit>, i: nat): set<string>
    requires i <= |vs|
  {
    l.ids + Elements(CommittedIds(vs[..i]))
  }

  /** A visit decided from the ids `known` before it: acquisition is attempted
      exactly for a short, detailed, unknown video, skipped as downloaded
      exactly for a short, detailed, known one, and reported undetailed
      exactly when no details came back; an attempt commits exactly when its
      collaborators all succeed. */
  predicate DecidedFrom(v: Visit, known: set<string>) {
    && (v.decision.Attempted? <==> Qualifies(v.item) && v.item.id !in known)
    && (v.decision == AlreadyDownloaded <==> Qualifies(v.item) && v.item.id in known)
    && (v.decision == Undetailed <==> v.item.details.NoDetails?)
    && (v.decision == Attempted(Committed) <==> v.decision.Attempted? && Succeeds(v.item.streams))
  }

  /** Every visit decided from what was known just before it. */
  predicate Consistent(l: Ledger, vs: seq<Visit>) {
    forall i :: 0 <= i < |vs| ==> DecidedFrom(vs[i], Known(l, vs, i))
  }

  /** What is known before the i-th of `[v] + rest` from `l` is what is known
      before the (i-1)-th of `rest` from the ledger `v` left. */
  lemma KnownShift(l: Ledger, v: Visit, l1: Ledger, rest: seq<Visit>, i: nat)
    requires l1.ids == l.ids + Elements(CommittedIds([v]))
    requires 1 <= i <= |rest| + 1
    ensures Known(l, [v] + rest, i) == Known(l1, rest, i - 1)
  {
    assert ([v] + rest)[..i] == [v] + rest[..i - 1];
    CommittedIdsAppend([v], rest[..i - 1]);
  }

  /** The item loop decides every visit from the ids loaded plus those
      committed earlier in the loop (main.py:133-143). */
  lemma {:induction false} WalkDecisions(items: seq<Item>, l: Ledger)
    requires Resolved(items)
    ensures Consistent(l, WalkItems(items, l).visits)
    decreases |items|
  {
    if items != [] {
      ResolvedTail(items);
      var p := ProcessItem(items[0], l);
      var rest := WalkItems(items[1..], p.ledger).visits;
      WalkDecisions(items[1..], p.ledger);
      var vs := WalkItems(items, l).visits;
      assert vs == p.visits + rest;
      CommittedIdsOne(p.visits[0]);
      assert p.visits == [vs[0]];
      forall i | 0 <= i < |vs| ensures DecidedFrom(vs[i], Known(l, vs, i)) {
        if i == 0 {
          assert vs[..0] == [];
        } else {
          KnownShift(l, vs[0], p.ledger, rest, i);
          assert vs[i] == rest[i - 1];
        }
      }
    }
  }

  /** A video committed earlier in the loop is not acquired again when it is
      listed a second time: it is now in the set (main.py:78, 138). */
  lemma NoReacquisition(items: seq<Item>, l: Ledger, i: nat, j: nat)
    requires Resolved(items)
    requires i < j < |items| && items[i].id == items[j].id
    requires WalkItems(items, l).visits[i].decision == Attempted(Committed)
    ensures !WalkItems(items, l).visits[j].decision.Attempted?
  {
    var vs := WalkItems(items, l).visits;
    WalkDecisions(items, l);
    assert DecidedFrom(vs[j], Known(l, vs, j));
    assert vs[..j][i] == vs[i];
    CommittedIdsMembers(vs[..j], items[i].id);
  }

  /** The loop over `a + b` is the loop over `a` followed by the loop over `b`
      from the ledger `a` left. */
  lemma {:induction false} WalkItemsAppend(a: seq<Item>, b: seq<Item>, l: Ledger)
    requires Resolved(a) && Resolved(b)
    ensures Resolved(a + b)
    ensures var pa := WalkItems(a, l);
      var pb := WalkItems(b, pa.ledger);
      WalkItems(a + b, l) == Pass(pa.visits + pb.visits, pb.ledger)
    decreases |a|
  {
    ResolvedAppend(a, b);
    if a == [] {
      assert a + b == b;
    } else {
      ResolvedTail(a);
      var p := ProcessItem(a[0], l);
      assert (a + b)[0] == a[0] && (a + b)[1..] == a[1..] + b;
      ResolvedAppend(a[1..], b);
      WalkItemsAppend(a[1..], b, p.ledger);
      var pa := WalkItems(a[1..], p.ledger);
      var pb := WalkItems(b, pa.ledger);
      assert p.visits + (pa.visits + pb.visits) == (p.visits + pa.visits) + pb.visits;
    }
  }

  /** The walk so far: visits, ledger, the page tokens sent and why it ended. */
  datatype Walk = Walk(visits: seq<Visit>, ledger: Ledger, requests: seq<Option<string>>, stop: Stop)

  /** The page loop of `fetch_videos_from_playlist` from the k-th request on,
      sending `token` (`None` when no page token is set). A raising page or
      details request ends the walk; the exception leaves the function. */
  function WalkPages(replies: seq<Reply>, k: nat, token: Option<string>, l: Ledger): (w: Walk)
    requires k <= |replies|
    // One request per reply consumed, the first sending `token`.
    ensures |w.requests| <= |replies| - k
    ensures w.requests != [] <==> k < |replies|
    ensures w.requests != [] ==> w.requests[0] == token
    // The in-memory set only grows during the walk.
    ensures l.ids <= w.ledger.ids
    decreases |replies| - k
  {
    if k == |replies| then Walk([], l, [], Truncated)
    else match replies[k]
      case PageFailed => Walk([], l, [token], PageError)
      case Page(items, next) =>
        var n := FirstFailure(items);
        var p := WalkItems(items[..n], l);
        if n < |items| then Walk(p.visits, p.ledger, [token], DetailsError)
        else if !HasNext(next) then Walk(p.visits, p.ledger, [token], Exhausted)
        else
          var rest := WalkPages(replies, k + 1, next, p.ledger);
          Walk(p.visits + rest.visits, rest.ledger, [token] + rest.requests, rest.stop)
  }

  /** The page walk is the item loop over the items the catalog schedule
      reaches: which items are visited, the tokens sent and the reason for
      stopping do not depend on the ledger or on any acquisition. */
  lemma {:induction false} WalkFollowsSchedule(replies: seq<Reply>, k: nat, token: Option<string>, l: Ledger)
    requires k <= |replies|
    ensures var w := WalkPages(replies, k, token, l);
      var s := SchedulePages(replies, k, token);
      && w.visits == WalkItems(s.items, l).visits
      && w.ledger == WalkItems(s.items, l).ledger
      && w.requests == s.requests
      && w.stop == s.stop
    decreases |replies| - k
  {
    if k < |replies| && replies[k].Page? {
      var items := replies[k].items;
      var n := FirstFailure(items);
      if n == |items| {
        assert items[..n] == items;
      }
      if n == |items| && HasNext(replies[k].next) {
        var p := WalkItems(items, l);
        WalkFollowsSchedule(replies, k + 1, replies[k].next, p.ledger);
        var s := SchedulePages(replies, k + 1, replies[k].next);
        WalkItemsAppend(items, s.items, l);
      }
    }
  }

  /** What a run leaves: the tracking file, and for inspection the visits,
      the page tokens sent and the reason it ended. */
  datatype RunResult = RunResult(file: LogFile, visits: seq<Visit>, requests: seq<Option<string>>, stop: Stop)

  /** `run_daemon` (main.py:150-158) on tracking file `f`: load the ledger
      once, resolve the uploads playlist (`resolved` is false when that lookup
      raises), then walk it. Every exception ends the run without re-raising. */
  function Run(f: LogFile, resolved: bool, replies: seq<Reply>): (r: RunResult)
    ensures !resolved ==> r.file == f && r.visits == [] && r.requests == [] && r.stop == ChannelError
    ensures resolved ==> r.stop != ChannelError
  {
    var l := Open(f);
    if !resolved then RunResult(f, [], [], ChannelError)
    else
      var w := WalkPages(replies, 0, None, l);
      WalkFollowsSchedule(replies, 0, None, l);
      RunResult(w.ledger.file, w.visits, w.requests, w.stop)
  }

  /** A resolved run visits exactly the items the catalog schedule reaches, in
      order, sends its tokens, decides each visit from the loaded ids plus
      those committed earlier, and appends exactly the committed ids to the
      file, in order. */
  lemma RunSummary(f: LogFile, replies: seq<Reply>)
    ensures var r := Run(f, true, replies);
      var s := SchedulePages(replies, 0, None);
      && |r.visits| == |s.items|
      && (forall i :: 0 <= i < |s.items| ==> r.visits[i].item == s.items[i])
      && r.requests == s.requests
      && r.stop == s.stop
      && r.file == SaveAll(f, CommittedIds(r.visits))
      && Consistent(Open(f), r.visits)
  {
    var s := SchedulePages(replies, 0, None);
    WalkFollowsSchedule(replies, 0, None, Open(f));
    WalkDecisions(s.items, Open(f));
  }

  /** A resolved run visits, in order, the items of every reply it requested,
      each page up to its first raising details lookup: when the walk aborts,
      the items before the abort were all visited and no later one was. */
  lemma RunReaches(f: LogFile, replies: seq<Reply>)
    ensures var r := Run(f, true, replies);
      var reached := ReachedFrom(replies, 0, |r.requests|);
      && |r.visits| == |reached|
      && forall i :: 0 <= i < |r.visits| ==> r.visits[i].item == reached[i]
  {
    RunSummary(f, replies);
    ScheduleReaches(replies, 0, None);
  }

  /** The file only grows during a run: nothing already recorded is lost. */
  lemma RunExtendsLog(f: LogFile, resolved: bool, replies: seq<Reply>)
    ensures Extends(f, Run(f, resolved, replies).file)
  {
    if resolved {
      RunSummary(f, replies);
      SaveAllExtends(f, CommittedIds(Run(f, resolved, replies).visits));
    } else {
      SaveAllExtends(f, []);
      SaveAllAppends(f, []);
    }
  }

  /** With clean ids, reloading the file after a run gives the ids loaded
      before it plus exactly those it committed. */
  lemma RunThenLoad(f: LogFile, resolved: bool, replies: seq<Reply>)
    requires WellFormed(f)
    requires AllClean(CommittedIds(Run(f, resolved, replies).visits))
    ensures WellFormed(Run(f, resolved, replies).file)
    ensures Load(Run(f, resolved, replies).file) == Load(f) + Elements(CommittedIds(Run(f, resolved, replies).visits))
  {
    if resolved {
      RunSummary(f, replies);
      SaveAllThenLoad(f, CommittedIds(Run(f, resolved, replies).visits));
    }
  }

  /** Every attempted acquisition of the visits committed. */
  predicate AllSucceeded(vs: seq<Visit>) {
    forall i :: 0 <= i < |vs| && vs[i].decision.Attempted? ==> vs[i].decision.outcome.Committed?
  }

  /** Idempotence: when every acquisition of a run succeeds, a second run over
      the same catalog, starting from the file the first left, attempts
      nothing. */
  lemma SecondRunAttemptsNothing(f: LogFile, resolved: bool, replies: seq<Reply>)
    requires WellFormed(f)
    requires AllClean(CommittedIds(Run(f, resolved, replies).visits))
    requires AllSucceeded(Run(f, resolved, replies).visits)
    ensures var r2 := Run(Run(f, resolved, replies).file, resolved, replies);
      forall j :: 0 <= j < |r2.visits| ==> !r2.visits[j].decision.Attempted?
  {
    if resolved {
      var r1 := Run(f, resolved, replies);
      var f2 := r1.file;
      var r2 := Run(f2, resolved, replies);
      var c1 := CommittedIds(r1.visits);
      RunSummary(f, replies);
      RunThenLoad(f, resolved, replies);
      RunSummary(f2, replies);
      forall j | 0 <= j < |r2.visits| ensures !r2.visits[j].decision.Attempted? {
        SecondVisitSkipped(f, f2, r1.visits, r2.visits, j);
      }
    }
  }

  /** The step of `SecondRunAttemptsNothing` for one visit. */
  lemma SecondVisitSkipped(f: LogFile, f2: LogFile, vs1: seq<Visit>, vs2: seq<Visit>, j: nat)
    requires |vs1| == |vs2| && j < |vs2| && vs1[j].item == vs2[j].item
    requires Consistent(Open(f), vs1) && Consistent(Open(f2), vs2)
    requires AllSucceeded(vs1)
    requires Load(f2) == Load(f) + Elements(CommittedIds(vs1))
    ensures !vs2[j].decision.Attempted?
  {
    var x := vs1[j].item.id;
    assert DecidedFrom(vs1[j], Known(Open(f), vs1, j));
    assert DecidedFrom(vs2[j], Known(Open(f2), vs2, j));
    if vs1[j].decision.Attempted? {
      CommittedIdsMembers(vs1, x);
    } else if Qualifies(vs1[j].item) {
      assert vs1 == vs1[..j] + vs1[j..];
      CommittedIdsAppend(vs1[..j], vs1[j..]);
    }
  }

  /** A catalog of one page without a next token, whose lookups all succeed,
      is walked as one item loop with a single request. */
  lemma RunOnePage(f: LogFile, items: seq<Item>)
    requires Resolved(items)
    ensures var p := WalkItems(items, Open(f));
      Run(f, true, [Page(items, None)]) == RunResult(p.ledger.file, p.visits, [None], Exhausted)
  {
    var replies := [Page(items, None)];
    assert replies[1..] == [];
    assert Complete(replies);
    CompleteCatalog(replies);
    WalkFollowsSchedule(replies, 0, None, Open(f));
  }

  /** Short, long, short, all fresh and all succeeding: both short ones are
      committed, in order. */
  lemma ShortLongShort(x: Item, y: Item, z: Item, l: Ledger)
    requires Qualifies(x) && Qualifies(z) && y.details.Duration? && !Qualifies(y)
    requires Succeeds(x.streams) && Succeeds(z.streams)
    requires x.id !in l.ids && z.id !in l.ids && x.id != z.id
    ensures var p := WalkItems([x, y, z], l);
      && p.visits == [Visit(x, Attempted(Committed)), Visit(y, NotShort), Visit(z, Attempted(Committed))]
      && p.ledger == Commit(Commit(l, x.id), z.id)
  {
    var l1 := Commit(l, x.id);
    var l2 := Commit(l1, z.id);
    assert z.id !in l1.ids;
    assert WalkItems([z], l1) == Pass([Visit(z, Attempted(Committed))], l2) by {
      assert [z][1..] == [];
    }
    assert WalkItems([y, z], l1) == Pass([Visit(y, NotShort), Visit(z, Attempted(Committed))], l2) by {
      assert [y, z][1..] == [z];
    }
    assert [x, y, z][1..] == [y, z];
  }

  /** A one-page catalog of a short, a long and a short video with no
      tracking file: the two short ones are acquired, in order, and the file
      ends up holding exactly their ids. */
  lemma RunShortLongShort(x: Item, y: Item, z: Item)
    requires Qualifies(x) && Qualifies(z) && y.details.Duration? && !Qualifies(y)
    requires Succeeds(x.streams) && Succeeds(z.streams)
    requires Clean(x.id) && Clean(z.id) && x.id != z.id
    ensures var r := Run(Absent, true, [Page([x, y, z], None)]);
      && r.visits == [Visit(x, Attempted(Committed)), Visit(y, NotShort), Visit(z, Attempted(Committed))]
      && Load(r.file) == {x.id, z.id}
  {
    assert Resolved([x, y, z]);
    RunOnePage(Absent, [x, y, z]);
    ShortLongShort(x, y, z, Open(Absent));
    SaveTwoThenLoad(x.id, z.id);
  }

  /** Three listed videos of 45 s, 2 min 10 s and 30 s with no tracking file:
      two acquisitions, and the file holds exactly those two ids. */
  lemma ScenarioTwoShortsOneLong(a: string, b: string, c: string, w: Collaborators)
    requires Succeeds(w) && Clean(a) && Clean(c) && a != c
    ensures var r := Run(Absent, true,
        [Page([Item(a, Duration("PT45S"), w), Item(b, Duration("PT2M10S"), w),
               Item(c, Duration("PT30S"), w)], None)]);
      && r.visits == [Visit(Item(a, Duration("PT45S"), w), Attempted(Committed)),
                      Visit(Item(b, Duration("PT2M10S"), w), NotShort),
                      Visit(Item(c, Duration("PT30S"), w), Attempted(Committed))]
      && Load(r.file) == {a, c}
  {
    var x, y, z := Item(a, Duration("PT45S"), w), Item(b, Duration("PT2M10S"), w), Item(c, Duration("PT30S"), w);
    assert Qualifies(x) && Qualifies(z) && !Qualifies(y) by {
      SecondsExamples();
      MinutesExample();
    }
    RunShortLongShort(x, y, z);
  }

  /** A qualifying video with no audio-only stream: nothing is downloaded, the
      ledger stays as it was and the loop goes on to the next item. */
  lemma ScenarioNoAudioStream(it: Item, next: Item, l: Ledger)
    requires Qualifies(it) && it.id !in l.ids && !next.details.LookupFailed?
    requires !it.streams.hasAudio
    requires Lookup !in it.streams.raising && SelectVideo !in it.streams.raising
    requires SelectAudio !in it.streams.raising
    ensures var p := WalkItems([it, next], l);
      && p.visits[0].decision == Attempted(NoSuitableStreams)
      && DownloadVideo !in Acquire(it.id, l, it.streams).calls
      && p.visits[1].item == next
      && p == Pass([Visit(it, Attempted(NoSuitableStreams))] + ProcessItem(next, l).visits, ProcessItem(next, l).ledger)
  {
    AcquireCalls(it.id, l, it.streams);
    var a := Acquire(it.id, l, it.streams);
    assert a.outcome == NoSuitableStreams && a.ledger == l;
    assert ProcessItem(it, l) == Pass([Visit(it, Attempted(NoSuitableStreams))], l);
    assert WalkItems([next], l) == ProcessItem(next, l) by {
      assert [next][1..] == [];
    }
    assert [it, next][1..] == [next];
  }

  /** A ledger file already holding one qualifying video's id: that video is
      skipped and the other qualifying one is still attempted. */
  lemma RunKnownThenFresh(x: Item, y: Item)
    requires Qualifies(x) && Qualifies(y) && Clean(x.id) && x.id != y.id
    ensures var r := Run(Present(x.id + "\n"), true, [Page([x, y], None)]);
      && |r.visits| == 2
      && r.visits[0] == Visit(x, AlreadyDownloaded)
      && r.visits[1].item == y && r.visits[1].decision.Attempted?
  {
    var f := Present(x.id + "\n");
    assert Load(f) == {x.id} by {
      LoadOneLine(x.id);
      StripIdentity(x.id);
    }
    assert Resolved([x, y]);
    RunOnePage(f, [x, y]);
    assert [x, y][1..] == [y];
    assert [y][1..] == [];
  }

  /** Why a second run attempts nothing only from a well-formed file: from a
      file whose one line, `x`'s id, has no final line break, the first run
      skips x and commits y, every attempt succeeding; but the append glues
      y's id onto x's line, so the second run attempts x again. */
  lemma UnterminatedLogRetries(x: Item, y: Item)
    requires Qualifies(x) && Qualifies(y) && Succeeds(y.streams)
    requires Clean(x.id) && Clean(y.id) && x.id != [] && y.id != [] && x.id != y.id
    ensures var replies := [Page([x, y], None)];
      var r1 := Run(Present(x.id), true, replies);
      var r2 := Run(r1.file, true, replies);
      && !WellFormed(Present(x.id))
      && r1.visits == [Visit(x, AlreadyDownloaded), Visit(y, Attempted(Committed))]
      && AllSucceeded(r1.visits) && AllClean(CommittedIds(r1.visits))
      && r2.visits[0].item == x && r2.visits[0].decision.Attempted?
  {
    assert x.id[|x.id| - 1] != '\n';
    UnterminatedFirstRun(x, y);
    var vs := [Visit(x, AlreadyDownloaded), Visit(y, Attempted(Committed))];
    assert CommittedIds(vs) == [y.id] by {
      assert vs == [vs[0]] + [vs[1]];
      CommittedIdsAppend([vs[0]], [vs[1]]);
      CommittedIdsOne(vs[0]);
      CommittedIdsOne(vs[1]);
    }
    UnterminatedLogLosesIds(x.id, y.id);
    FirstItemAttempted(Save(Present(x.id), y.id), x, y);
  }

  /** A qualifying first item whose id the file does not hold is attempted. */
  lemma FirstItemAttempted(f: LogFile, x: Item, y: Item)
    requires Qualifies(x) && !y.details.LookupFailed? && x.id !in Load(f)
    ensures var r := Run(f, true, [Page([x, y], None)]);
      r.visits != [] && r.visits[0].item == x && r.visits[0].decision.Attempted?
  {
    assert Resolved([x, y]);
    assert [x, y][1..] == [y];
    RunOnePage(f, [x, y]);
  }

  /** The first run of `UnterminatedLogRetries`: x is found in the file and
      skipped, y is committed and its id appended after x's unterminated line. */
  lemma UnterminatedFirstRun(x: Item, y: Item)
    requires Qualifies(x) && Qualifies(y) && Succeeds(y.streams)
    requires Clean(x.id) && x.id != [] && x.id != y.id
    ensures Run(Present(x.id), true, [Page([x, y], None)])
      == RunResult(Save(Present(x.id), y.id),
                   [Visit(x, AlreadyDownloaded), Visit(y, Attempted(Committed))], [None], Exhausted)
  {
    var f := Present(x.id);
    LoadUnterminatedLine(x.id);
    assert Resolved([x, y]);
    assert [x, y][1..] == [y];
    assert [y][1..] == [];
    RunOnePage(f, [x, y]);
    assert WalkItems([y], Open(f)) == Pass([Visit(y, Attempted(Committed))], Commit(Open(f), y.id));
  }

  /** The same with a 45-second video already in the file and a 30-second one
      that is not. */
  lemma ScenarioAlreadyInLedger(a: string, b: string, s: Collaborators)
    requires Clean(a) && a != b
    ensures var r := Run(Present(a + "\n"), true,
        [Page([Item(a, Duration("PT45S"), s), Item(b, Duration("PT30S"), s)], None)]);
      && |r.visits| == 2
      && r.visits[0].decision == AlreadyDownloaded
      && r.visits[1].decision.Attempted?
  {
    var x, y := Item(a, Duration("PT45S"), s), Item(b, Duration("PT30S"), s);
    assert Qualifies(x) && Qualifies(y) by {
      SecondsExamples();
    }
    RunKnownThenFresh(x, y);
  }
}

=== FILE: text.dfy ===
/** The string operations the script relies on: Python's `str.strip()`, the
    substring test `sub in s`, and the way a text file is read line by line
    (`for line in file`) and written one line at a time. */
module Text {

  /** Python's `str.isspace()` for one character: the ASCII controls 9-13 and
      28-31, the space, and the Unicode separators Python counts as white space. */
  predicate IsSpace(c: char) {
    || ('\t' <= c <= '\r')
    || ('\U{1C}' <= c <= '\U{1F}')
    || c == ' '
    || c == '\U{85}'
    || c == '\U{A0}'
    || c == '\U{1680}'
    || ('\U{2000}' <= c <= '\U{200A}')
    || c == '\U{2028}'
    || c == '\U{2029}'
    || c == '\U{202F}'
    || c == '\U{205F}'
    || c == '\U{3000}'
  }

  predicate AllSpace(s: string) {
    forall i :: 0 <= i < |s| ==> IsSpace(s[i])
  }

  /** Every character of `s` in the index range `lo..hi` is white space. */
  predicate SpaceBetween(s: string, lo: int, hi: int)
    requires 0 <= lo && hi <= |s|
  {
    forall k :: lo <= k < hi ==> IsSpace(s[k])
  }

  /** Neither the first nor the last character is white space. */
  predicate Unpadded(s: string) {
    s == [] || (!IsSpace(s[0]) && !IsSpace(s[|s| - 1]))
  }

  /** A line that survives a write and a re-read unchanged: no line break
      inside it and no white space around it. */
  predicate Clean(s: string) {
    '\n' !in s && Unpadded(s)
  }

  /** The first index at or after `k` that does not hold white space, or `|s|`. */
  function SkipSpace(s: string, k: nat): (n: nat)
    requires k <= |s|
    ensures k <= n <= |s|
    ensures SpaceBetween(s, k, n)
    ensures n < |s| ==> !IsSpace(s[n])
    decreases |s| - k
  {
    if k < |s| && IsSpace(s[k]) then SkipSpace(s, k + 1) else k
  }

  /** The index just after the last character before `k` that is not white
      space, or 0. */
  function SkipSpaceBack(s: string, k: nat): (n: nat)
    requires k <= |s|
    ensures n <= k
    ensures SpaceBetween(s, n, k)
    ensures n > 0 ==> !IsSpace(s[n - 1])
    decreases k
  {
    if k > 0 && IsSpace(s[k - 1]) then SkipSpaceBack(s, k - 1) else k
  }

  /** Where the stripped text starts: after the leading white space. */
  function StripStart(s: string): (i: nat)
    ensures i <= |s| && SpaceBetween(s, 0, i)
    ensures i < |s| ==> !IsSpace(s[i])
  {
    SkipSpace(s, 0)
  }

  /** Where the stripped text ends: before the trailing white space. */
  function StripEnd(s: string): (j: nat)
    ensures StripStart(s) <= j <= |s| && SpaceBetween(s, j, |s|)
    ensures StripStart(s) < j ==> !IsSpace(s[j - 1])
  {
    if StripStart(s) == |s| then |s| else SkipSpaceBack(s, |s|)
  }

  /** `str.strip()`: the middle of `s` between the leading and the trailing
      white space. */
  function Strip(s: string): (r: string)
    ensures Unpadded(r)
  {
    s[StripStart(s)..StripEnd(s)]
  }

  /** Stripping undoes any white-space padding around an unpadded string. */
  lemma {:induction false} StripPadded(p: string, x: string, q: string)
    requires AllSpace(p) && AllSpace(q) && Unpadded(x)
    ensures Strip(p + x + q) == x
  {
    var s := p + x + q;
    assert forall k :: 0 <= k < |p| ==> s[k] == p[k];
    assert forall k :: 0 <= k < |q| ==> s[|p| + |x| + k] == q[k];
    if x == [] {
      assert StripStart(s) == |s|;
    } else {
      assert s[|p|] == x[0] && s[|p| + |x| - 1] == x[|x| - 1];
      assert StripStart(s) == |p|;
      assert StripEnd(s) == |p| + |x|;
      assert s[|p|..|p| + |x|] == x;
    }
  }

  /** `s` is its stripped form with white space before and after it. */
  lemma StripSplits(s: string)
    ensures s == s[..StripStart(s)] + Strip(s) + s[StripEnd(s)..]
    ensures AllSpace(s[..StripStart(s)]) && AllSpace(s[StripEnd(s)..])
  {
    var i, j := StripStart(s), StripEnd(s);
    assert forall k :: 0 <= k < i ==> s[..i][k] == s[k];
    assert forall k :: 0 <= k < |s| - j ==> s[j..][k] == s[j + k];
  }

  /** `Strip(s) == s` exactly for strings without surrounding white space. */
  lemma {:induction false} StripIdentity(s: string)
    ensures Strip(s) == s <==> Unpadded(s)
  {
    if Unpadded(s) {
      StripPadded([], s, []);
      assert [] + s + [] == s;
    }
  }

  lemma {:induction false} StripIdempotent(s: string)
    ensures Strip(Strip(s)) == Strip(s)
  {
    StripIdentity(Strip(s));
  }

  /** `sub` occurs in `s` starting at index `i`. */
  predicate OccursAt(s: string, sub: string, i: nat) {
    i + |sub| <= |s| && s[i..i + |sub|] == sub
  }

  predicate StartsWith(s: string, prefix: string) {
    |prefix| <= |s| && s[..|prefix|] == prefix
  }

  /** Python's `sub in s` for strings: a substring test, true of the empty `sub`. */
  predicate Contains(s: string, sub: string)
    // The empty string is in every string; a longer string is in none.
    ensures sub == [] ==> Contains(s, sub)
    ensures Contains(s, sub) ==> |sub| <= |s|
    decreases |s|
  {
    StartsWith(s, sub) || (|s| > 0 && Contains(s[1..], sub))
  }

  /** The substring test holds exactly when `sub` occurs at some index. */
  lemma {:induction false} ContainsOccurs(s: string, sub: string)
    ensures Contains(s, sub) <==> exists i: nat :: OccursAt(s, sub, i)
    decreases |s|
  {
    if Contains(s, sub) {
      if StartsWith(s, sub) {
        assert OccursAt(s, sub, 0);
      } else {
        ContainsOccurs(s[1..], sub);
        var i: nat :| OccursAt(s[1..], sub, i);
        assert s[1..][i..i + |sub|] == s[i + 1..i + 1 + |sub|];
        assert OccursAt(s, sub, i + 1);
      }
    }
    if exists i: nat :: OccursAt(s, sub, i) {
      var i: nat :| OccursAt(s, sub, i);
      if i == 0 {
        assert StartsWith(s, sub);
      } else {
        assert s[1..][i - 1..i - 1 + |sub|] == s[i..i + |sub|];
        assert OccursAt(s[1..], sub, i - 1);
        ContainsOccurs(s[1..], sub);
      }
    }
  }

  /** For a one-character `sub` the substring test is character membership. */
  lemma {:induction false} ContainsChar(s: string, c: char)
    ensures Contains(s, [c]) <==> c in s
  {
    ContainsOccurs(s, [c]);
    if c in s {
      var i :| 0 <= i < |s| && s[i] == c;
      assert OccursAt(s, [c], i);
    }
    if exists i: nat :: OccursAt(s, [c], i) {
      var i: nat :| OccursAt(s, [c], i);
      assert s[i] == s[i..i + 1][0];
    }
  }

  /** The first line break at or after index `k`, or `|t|` when there is none. */
  function LineEnd(t: string, k: nat): (i: nat)
    requires k <= |t|
    ensures k <= i <= |t|
    ensures forall m :: k <= m < i ==> t[m] != '\n'
    ensures i < |t| ==> t[i] == '\n'
    decreases |t| - k
  {
    if k == |t| || t[k] == '\n' then k else LineEnd(t, k + 1)
  }

  /** The lines of `t` read from index `k`, as `for line in file` yields them,
      each without its terminating line break. Nothing is left to read at the
      end of the text; a text ending in a line break has no trailing empty line,
      and a last line without a break still counts. */
  function LinesFrom(t: string, k: nat): seq<string>
    requires k <= |t|
    decreases |t| - k
  {
    if k == |t| then []
    else
      var i := LineEnd(t, k);
      if i == |t| then [t[k..]] else [t[k..i]] + LinesFrom(t, i + 1)
  }

  /** The lines of a whole text: none for the empty text, and none holding a
      line break. */
  function Lines(t: string): (ls: seq<string>)
    ensures ls == [] <==> t == []
    ensures NoBreaks(ls)
  {
    LinesNoBreaks(t, 0);
    LinesFrom(t, 0)
  }

  /** The text written by one `write(line + "\n")` per line, in order. */
  function Join(ls: seq<string>): string {
    if ls == [] then [] else ls[0] + "\n" + Join(ls[1..])
  }

  /** A text that is empty or ends with a line break: appending to it starts a
      new line. */
  predicate Terminated(t: string) {
    t == [] || t[|t| - 1] == '\n'
  }

  predicate NoBreaks(ls: seq<string>) {
    forall i :: 0 <= i < |ls| ==> '\n' !in ls[i]
  }

  /** No line read from a text contains a line break. */
  lemma {:induction false} LinesNoBreaks(t: string, k: nat)
    requires k <= |t|
    ensures NoBreaks(LinesFrom(t, k))
    decreases |t| - k
  {
    if k < |t| {
      var i := LineEnd(t, k);
      assert forall m :: 0 <= m < i - k ==> t[k..i][m] == t[k + m];
      if i < |t| {
        LinesNoBreaks(t, i + 1);
      }
    }
  }

  lemma {:induction false} JoinTerminated(ls: seq<string>)
    ensures Terminated(Join(ls))
  {
    if ls != [] {
      JoinTerminated(ls[1..]);
      var rest := Join(ls[1..]);
      assert Join(ls) == ls[0] + "\n" + rest;
      if rest != [] {
        assert Join(ls)[|Join(ls)| - 1] == rest[|rest| - 1];
      }
    }
  }

  lemma {:induction false} JoinAppend(a: seq<string>, b: seq<string>)
    ensures Join(a + b) == Join(a) + Join(b)
  {
    if a == [] {
      assert a + b == b;
    } else {
      assert (a + b)[1..] == a[1..] + b;
      JoinAppend(a[1..], b);
    }
  }

  /** Searching for a line break inside `a` is not affected by what follows. */
  lemma {:induction false} LineEndInPrefix(a: string, b: string, k: nat)
    requires k <= |a| && LineEnd(a, k) < |a|
    ensures LineEnd(a + b, k) == LineEnd(a, k)
    decreases |a| - k
  {
    if a[k] != '\n' {
      LineEndInPrefix(a, b, k + 1);
    }
  }

  /** Searching for a line break in the `b` part of `a + b` is searching `b`. */
  lemma {:induction false} LineEndInSuffix(a: string, b: string, m: nat)
    requires m <= |b|
    ensures LineEnd(a + b, |a| + m) == |a| + LineEnd(b, m)
    decreases |b| - m
  {
    if m < |b| && b[m] != '\n' {
      LineEndInSuffix(a, b, m + 1);
    }
  }

  lemma {:induction false} SliceOfPrefix(a: string, b: string, lo: nat, hi: nat)
    requires lo <= hi <= |a|
    ensures (a + b)[lo..hi] == a[lo..hi]
  {
  }

  /** The line written last is the line read last. */
  lemma {:induction false} LastLineRead(a: string, l: string)
    requires '\n' !in l
    ensures LinesFrom(a + (l + "\n"), |a|) == [l]
  {
    var b := l + "\n";
    var t := a + b;
    assert forall m :: 0 <= m < |l| ==> b[m] == l[m];
    assert forall m :: 0 <= m < |l| ==> b[m] != '\n';
    assert b[|l|] == '\n';
    assert LineEnd(b, 0) == |l|;
    LineEndInSuffix(a, b, 0);
    assert t[|a|..|a| + |l|] == l;
    assert LinesFrom(t, |a|) == [t[|a|..|a| + |l|]] + LinesFrom(t, |t|);
  }

  /** A terminated text still to be read from `k` has a line break ahead. */
  lemma {:induction false} BreakAhead(a: string, k: nat)
    requires Terminated(a) && k < |a|
    ensures LineEnd(a, k) < |a|
  {
    assert a[|a| - 1] == '\n';
  }

  /** Reading `a + b` from inside a terminated `a`: the first line is the same
      as reading `a` alone, and reading goes on after it. */
  lemma {:induction false} FirstLineInPrefix(a: string, b: string, k: nat)
    requires k < |a| && LineEnd(a, k) < |a|
    ensures LinesFrom(a + b, k) == [a[k..LineEnd(a, k)]] + LinesFrom(a + b, LineEnd(a, k) + 1)
  {
    var i := LineEnd(a, k);
    LineEndInPrefix(a, b, k);
    SliceOfPrefix(a, b, k, i);
    var t := a + b;
    assert LineEnd(t, k) == i;
    assert t[k..i] == a[k..i];
  }

  /** The inductive step of `AppendLineFrom`, kept apart so that each proof
      stays small. */
  lemma {:induction false} AppendLineStep(a: string, l: string, k: nat)
    requires Terminated(a) && k < |a|
    requires LineEnd(a, k) < |a|
    requires LinesFrom(a + (l + "\n"), LineEnd(a, k) + 1) == LinesFrom(a, LineEnd(a, k) + 1) + [l]
    ensures LinesFrom(a + (l + "\n"), k) == LinesFrom(a, k) + [l]
  {
    FirstLineInPrefix(a, l + "\n", k);
    assert LinesFrom(a, k) == [a[k..LineEnd(a, k)]] + LinesFrom(a, LineEnd(a, k) + 1);
    var x, ys := a[k..LineEnd(a, k)], LinesFrom(a, LineEnd(a, k) + 1);
    assert [x] + (ys + [l]) == ([x] + ys) + [l];
  }

  /** Appending a line to a terminated text adds it as the last line read,
      from any index of the old text. */
  lemma {:induction false} AppendLineFrom(a: string, l: string, k: nat)
    requires Terminated(a) && '\n' !in l && k <= |a|
    ensures LinesFrom(a + (l + "\n"), k) == LinesFrom(a, k) + [l]
    decreases |a| - k
  {
    if k < |a| {
      BreakAhead(a, k);
      AppendLineFrom(a, l, LineEnd(a, k) + 1);
      AppendLineStep(a, l, k);
    } else {
      LastLineRead(a, l);
    }
  }

  /** `save_downloaded_id` followed by a read: the saved id is the last line. */
  lemma {:induction false} AppendLine(a: string, l: string)
    requires Terminated(a) && '\n' !in l
    ensures Lines(a + (l + "\n")) == Lines(a) + [l]
  {
    AppendLineFrom(a, l, 0);
  }

  lemma {:induction false} LinesOfLine(l: string)
    requires '\n' !in l
    ensures Lines(l + "\n") == [l]
  {
    AppendLine([], l);
    assert [] + (l + "\n") == l + "\n";
  }

  /** Writing lines and reading them back gives the same lines. */
  lemma {:induction false} LinesJoin(ls: seq<string>)
    requires NoBreaks(ls)
    ensures Lines(Join(ls)) == ls
    decreases |ls|
  {
    if ls != [] {
      var init, last := ls[..|ls| - 1], ls[|ls| - 1];
      assert ls == init + [last];
      JoinAppend(init, [last]);
      assert Join([last]) == last + "\n";
      JoinTerminated(init);
      LinesJoin(init);
      AppendLine(Join(init), last);
    }
  }

  /** Reading a terminated text into lines from index `k` and writing them back
      gives the text from `k` on. */
  lemma {:induction false} JoinLinesFrom(t: string, k: nat)
    requires Terminated(t) && k <= |t|
    ensures Join(LinesFrom(t, k)) == t[k..]
    decreases |t| - k
  {
    if k < |t| {
      var i := LineEnd(t, k);
      assert i < |t| by {
        assert t[|t| - 1] == '\n';
      }
      JoinLinesFrom(t, i + 1);
      assert ([t[k..i]] + LinesFrom(t, i + 1))[1..] == LinesFrom(t, i + 1);
      assert t[k..] == t[k..i] + "\n" + t[i + 1..];
    }
  }

  /** Reading a terminated text into lines and writing them back gives the text. */
  lemma {:induction false} JoinLines(t: string)
    requires Terminated(t)
    ensures Join(Lines(t)) == t
  {
    JoinLinesFrom(t, 0);
  }

  /** In a text whose rest from `k` holds no line break, the search stops at a
      line break appended after it. */
  lemma {:induction false} LineEndAtFinalBreak(t: string, k: nat)
    requires k <= |t| && LineEnd(t, k) == |t|
    ensures LineEnd(t + "\n", k) == |t|
    decreases |t| - k
  {
    if k < |t| {
      assert (t + "\n")[k] == t[k];
      LineEndAtFinalBreak(t, k + 1);
    } else {
      assert (t + "\n")[|t|] == '\n';
    }
  }

  /** The inductive step of `LinesFromUnterminated`: a line that ends in a
      break inside `t` is read alike from `t` and from `t + "\n"`. */
  lemma {:induction false} UnterminatedStep(t: string, k: nat)
    requires k < |t| && LineEnd(t, k) < |t|
    requires LinesFrom(t + "\n", LineEnd(t, k) + 1) == LinesFrom(t, LineEnd(t, k) + 1)
    ensures LinesFrom(t + "\n", k) == LinesFrom(t, k)
  {
    FirstLineInPrefix(t, "\n", k);
  }

  /** Reading from inside a text whose last line has no line break gives the
      same lines as reading it with that break added. */
  lemma {:induction false} LinesFromUnterminated(t: string, k: nat)
    requires !Terminated(t) && k < |t|
    ensures LinesFrom(t + "\n", k) == LinesFrom(t, k)
    decreases |t| - k
  {
    var i := LineEnd(t, k);
    if i < |t| {
      assert i + 1 < |t| by {
        assert t[|t| - 1] != '\n';
      }
      LinesFromUnterminated(t, i + 1);
      UnterminatedStep(t, k);
    } else {
      var u := t + "\n";
      LineEndAtFinalBreak(t, k);
      assert u[k..|t|] == t[k..];
      assert LinesFrom(u, k) == [u[k..|t|]] + LinesFrom(u, |t| + 1);
    }
  }

  /** `for line in file` yields a last line without a line break just as it
      would with one: the final line of an unterminated text still counts. */
  lemma {:induction false} LinesUnterminated(t: string)
    requires !Terminated(t)
    ensures Lines(t + "\n") == Lines(t)
  {
    LinesFromUnterminated(t, 0);
  }

  /** The lines of any text, written back one per line, give the text with a
      line break added when its last line had none. With `LinesJoin` this
      fixes the lines of every text. */
  lemma {:induction false} JoinLinesOfAny(t: string)
    ensures Join(Lines(t)) == if Terminated(t) then t else t + "\n"
  {
    if Terminated(t) {
      JoinLines(t);
    } else {
      LinesUnterminated(t);
      assert (t + "\n")[|t + "\n"| - 1] == '\n';
      JoinLines(t + "\n");
    }
  }
}
